=== FILE: README.md ===
# Pulsar process monitor: a Dafny model

This project models the process-monitor slice of Pulsar, an eBPF runtime-security agent. It has five parts.

- **The C field-access shim** (`Kernel`). Nineteen functions read one field of a kernel struct (`cgroup`, `file`, `kernfs_node`, `linux_binprm`, `signal_struct`, `mm_struct`, `task_struct`). Each one returns a fixed sentinel for a NULL handle (NULL for pointers, -1 for `int`, `ULONG_MAX` for `u64`/`unsigned long`) and the named field otherwise. Kernel memory is an abstract heap with one map per struct type. A non-null handle the heap does not hold reads as the all-zero record, because that is what the kernel's probe-read helper leaves behind when a read faults.
- **The typed wrappers** (`KernelApi`). `Task` and `Signal` turn the shim's sentinels into `Result<_, c_long>`.
- **The probe program** (`ProcessMonitor`, with properties in `ProbeProperties`).
  - The kprobe `security_task_alloc` emits one fork event per allocated task.
  - The raw tracepoint `sched_process_exit` emits at most one exit event per firing, and only when both its tgid read and its exit-code read succeed; see "## Findings" for which object it reads.
  - Emitting appends to the perf channel's log.
  - The declared maps (rules, interest, per-CPU staging) are carried through every handler, which leaves them unchanged.
- **The event wire types** (`Events`). These cover the seven-member payload union, the discriminant and the side buffer. Field widths are subset types: `BufferIndex` fields are `u16` (so each is at most 65535), the side buffer is exactly 2048 `u64` words (16384 bytes), and an exit code is a `u32`.
- **The build helper** (`BpfBuilder`, with properties in `BuilderProperties`).
  - `build` compiles a probe twice, once per kernel variant, and strips each object.
  - `build_shim` compiles the shim to LLVM bitcode.
  - `build_rust` runs a nightly cargo build with a scrubbed environment.
  - The host is abstract: an environment map, the helper's include directory, and a `run` function that says whether a command was spawned and whether it succeeded. Errors are modelled as anyhow context chains (`Common.Outcome`).
- **The `pulsar` command-line client** (`PulsarCli`).
  - It connects, issues one API call per sub-command and prints a confirmation or the reply.
  - For `monitor`, it validates the filter options, compiles an ad-hoc rule and prints the selected events of the stream until a read fails or the stream ends.
  - The engine is abstract: connecting, calling, the event stream and the rule compiler are fields of `Engine`.

The fork handler reports a task even when its tgid cannot be read. The checked reads through the `Task` wrapper are commented out (crates/bpf-programs/process-monitor/src/main.rs:155-157). `handle_task_alloc` instead reads the tgid with the raw shim call and never checks it (main.rs:158). So a NULL task is reported with pid and ppid -1 (`ProbeProperties.ForkEmitsSentinelForNullTask`).

The comment above `build` (crates/bpf-builder/src/lib.rs:14-18) says the older-kernel object is built with a `FEATURE_5_5` constant defined. The code instead defines `VERSION_5_13` for the newer object and nothing for the older one, and the model follows the code (`BuilderProperties.BuildVariants`).

## Model

| member | source | states |
|---|---|---|
| Kernel.CgroupKn | crates/bpf-programs/process-monitor/vmlinux_access.c:7-12 | NULL cgroup gives NULL; otherwise the cgroup's `kn` |
| Kernel.FileFPathMnt | crates/bpf-programs/process-monitor/vmlinux_access.c:18-23 | NULL file gives NULL; otherwise `f_path.mnt` |
| Kernel.FileFPathDentry | crates/bpf-programs/process-monitor/vmlinux_access.c:25-30 | NULL file gives NULL; otherwise `f_path.dentry` |
| Kernel.KernfsNodeId | crates/bpf-programs/process-monitor/vmlinux_access.c:36-41 | NULL node gives ULONG_MAX; otherwise the node id; an unreadable node reads 0 |
| Kernel.LinuxBinprmFile | crates/bpf-programs/process-monitor/vmlinux_access.c:47-52 | NULL bprm gives NULL; otherwise its `file` |
| Kernel.LinuxBinprmArgc | crates/bpf-programs/process-monitor/vmlinux_access.c:54-59 | NULL bprm gives -1; otherwise `argc`; an unreadable bprm reads 0 |
| Kernel.LinuxBinprmFilename | crates/bpf-programs/process-monitor/vmlinux_access.c:61-66 | NULL bprm gives NULL; otherwise its `filename` |
| Kernel.SignalStructLiveCounter | crates/bpf-programs/process-monitor/vmlinux_access.c:72-77 | NULL signal gives -1; otherwise `live.counter` |
| Kernel.MmStructArgStart | crates/bpf-programs/process-monitor/vmlinux_access.c:83-88 | NULL mm gives ULONG_MAX; otherwise `arg_start` |
| Kernel.MmStructArgEnd | crates/bpf-programs/process-monitor/vmlinux_access.c:90-95 | NULL mm gives ULONG_MAX; otherwise `arg_end` |
| Kernel.TaskStructMm | crates/bpf-programs/process-monitor/vmlinux_access.c:101-106 | NULL task gives NULL; otherwise the task's `mm` |
| Kernel.TaskStructExitCode | crates/bpf-programs/process-monitor/vmlinux_access.c:108-113 | NULL task gives -1; otherwise `exit_code` |
| Kernel.TaskStructPid | crates/bpf-programs/process-monitor/vmlinux_access.c:115-120 | NULL task gives -1; otherwise `pid` |
| Kernel.TaskStructTgid | crates/bpf-programs/process-monitor/vmlinux_access.c:122-127 | NULL task gives -1; otherwise `tgid` |
| Kernel.TaskStructParent | crates/bpf-programs/process-monitor/vmlinux_access.c:129-134 | NULL task gives NULL; otherwise `parent` |
| Kernel.TaskStructChildrenNext | crates/bpf-programs/process-monitor/vmlinux_access.c:136-141 | NULL task gives NULL; otherwise `children.next` |
| Kernel.TaskStructSiblingNext | crates/bpf-programs/process-monitor/vmlinux_access.c:143-148 | NULL task gives NULL; otherwise `sibling.next` |
| Kernel.TaskStructGroupLeader | crates/bpf-programs/process-monitor/vmlinux_access.c:150-155 | NULL task gives NULL; otherwise `group_leader` |
| Kernel.TaskStructSignal | crates/bpf-programs/process-monitor/vmlinux_access.c:157-162 | NULL task gives NULL; otherwise `signal` |
| Kernel.PointerAccessorsNullOnNull | crates/bpf-programs/process-monitor/vmlinux_access.c:7-162 | every pointer accessor maps NULL to NULL on any heap |
| Kernel.IntAccessorsMinusOneOnNull | crates/bpf-programs/process-monitor/vmlinux_access.c:54-127 | every `int` accessor answers -1 for NULL |
| Kernel.UnsignedAccessorsMaxOnNull | crates/bpf-programs/process-monitor/vmlinux_access.h:5 | the `u64`/`unsigned long` accessors answer 2^64-1 for NULL |
| Kernel.SentinelIsInBand | crates/bpf-programs/process-monitor/vmlinux_access.c:122-127 | a real task whose tgid is -1 reads the same as the NULL handle |
| Kernel.TaskAccessorsLocal | crates/bpf-programs/process-monitor/vmlinux_access.c:101-162 | task reads depend only on the object at the handle |
| Common.WithContext | crates/bpf-builder/src/lib.rs:32-37 | `.context(..)` puts one message on top of a failure and leaves success and panics alone |
| Common.TryIntoU32 | crates/bpf-programs/process-monitor/src/main.rs:192 | the `i32` to `u32` conversion fails exactly on negative values and keeps the value otherwise |
| KernelApi.CheckedInt | crates/bpf-programs/process-monitor/src/main.rs:86-108 | a negative shim value is the error, widened unchanged; a non-negative one is the value |
| KernelApi.CheckedPtr | crates/bpf-programs/process-monitor/src/main.rs:110-132 | a null shim pointer is `Err(-1)`; any other pointer is kept |
| KernelApi.SignalLiveCounter | crates/bpf-programs/process-monitor/src/main.rs:68-74 | Ok iff the shim's counter is non-negative; the error is that negative value; NULL gives Err(-1) |
| KernelApi.TaskExitCode | crates/bpf-programs/process-monitor/src/main.rs:86-92 | Ok iff the shim's exit code is non-negative; the error is that value; NULL gives Err(-1) |
| KernelApi.TaskPid | crates/bpf-programs/process-monitor/src/main.rs:94-100 | Ok iff the shim's pid is non-negative; the error is that value; NULL gives Err(-1) |
| KernelApi.TaskTgid | crates/bpf-programs/process-monitor/src/main.rs:102-108 | Ok iff the shim's tgid is non-negative; the error is that value; NULL gives Err(-1) |
| KernelApi.TaskParent | crates/bpf-programs/process-monitor/src/main.rs:110-116 | Err(-1) iff the shim's parent is NULL; otherwise a Task on that parent |
| KernelApi.TaskGroupLeader | crates/bpf-programs/process-monitor/src/main.rs:118-124 | Err(-1) iff the shim's leader is NULL; otherwise a Task on it |
| KernelApi.TaskSignal | crates/bpf-programs/process-monitor/src/main.rs:126-132 | Err(-1) iff the shim's signal pointer is NULL; otherwise a Signal on it |
| KernelApi.ChainedLookups | crates/bpf-programs/process-monitor/src/main.rs:110-132 | for a task whose links are set, parent, leader and signal lookups yield the linked objects, and the leader's pid reads from the leader |
| Events.VariantOrdinal | crates/events/process-monitor/src/lib.rs:56-64 | the union has seven members in declaration order; fork is first and exit third |
| Events.CgroupDirEvent | crates/events/process-monitor/src/lib.rs:61-62 | mkdir and rmdir, and only they, carry a `CgroupEvent` |
| Events.SevenVariants | crates/events/process-monitor/src/lib.rs:56-64 | every ordinal below seven names some member |
| Events.IndexMayLeaveBuffer | crates/events/process-monitor/src/lib.rs:8-11 | the 16-bit fields admit a slot outside the 16384-byte buffer |
| ProcessMonitor.Emit | crates/bpf-programs/process-monitor/src/main.rs:194-207 | one output call appends exactly that event and changes nothing else |
| ProcessMonitor.HandleTaskAlloc | crates/bpf-programs/process-monitor/src/main.rs:151-176 | always Ok; appends one unstamped fork event whose pid and ppid are the unchecked shim tgid (-1 for NULL); heap and maps unchanged |
| ProcessMonitor.TrySecurityTaskAlloc | crates/bpf-programs/process-monitor/src/main.rs:143-148 | an unreadable argument 0 gives Err(-1) with no output; otherwise the fork event of that task |
| ProcessMonitor.SecurityTaskAlloc | crates/bpf-programs/process-monitor/src/main.rs:135-141 | returns 0 or 1, and 1 exactly when argument 0 is unreadable; only the output log changes |
| ProcessMonitor.ExitEventOf | crates/bpf-programs/process-monitor/src/main.rs:191-192 | an exit record iff tgid and exit code both read non-negative; otherwise the first failing read's value is the error |
| ProcessMonitor.TrySchedProcessExit | crates/bpf-programs/process-monitor/src/main.rs:183-210 | emits exactly one well-tagged exit record with a non-negative pid when both reads succeed; on error nothing changes and the error is negative |
| ProcessMonitor.SchedProcessExit | crates/bpf-programs/process-monitor/src/main.rs:178-184 | as written: reads the task at the context's own address; the state changes iff both reads there succeed |
| ProcessMonitor.SchedProcessExitFromArg | crates/bpf-programs/process-monitor/src/main.rs:178-210 | corrected: reads the task from the tracepoint's first argument; the state changes iff both reads succeed |
| ProbeProperties.ExitReportsLiveTask | crates/bpf-programs/process-monitor/src/main.rs:183-210 | a live task is reported with its own tgid and exit code |
| ProbeProperties.ExitSkipsNullTask | crates/bpf-programs/process-monitor/src/main.rs:191 | a NULL task stops the exit handler with Err(-1) and no output |
| ProbeProperties.ForkEmitsSentinelForNullTask | crates/bpf-programs/process-monitor/src/main.rs:158-173 | a NULL task still yields a fork event with pid and ppid -1 |
| ProbeProperties.ScenarioForkOf42 | crates/bpf-programs/process-monitor/src/main.rs:151-176 | task with tgid 42: return 0, one fork event (pid 42, ppid 42) |
| ProbeProperties.ScenarioExitOf7 | crates/bpf-programs/process-monitor/src/main.rs:183-210 | tgid 7 exiting with code 256: one exit event carrying both |
| ProbeProperties.ScenarioExitCodeUnreadable | crates/bpf-programs/process-monitor/src/main.rs:192 | a negative exit code read: Err(-1), state unchanged |
| ProbeProperties.RunProbesAppendsOnly | crates/bpf-programs/process-monitor/src/main.rs:135-210 | over any sequence of firings, heap and maps stay the same, earlier output is a prefix, one event per emitting firing is added, and each added event is a well-tagged fork or exit record; maps within their declared capacities stay within them |
| ProbeProperties.ExitTracepointMisreadsContext | crates/bpf-programs/process-monitor/src/main.rs:184 | with task 7 at one address and the argument block at another, the handler as written reports pid 0 and code 0; the corrected one reports 7 and 256 |
| ProbeProperties.ExitTracepointReportsArgument | crates/bpf-programs/process-monitor/src/main.rs:183-210 | the corrected handler reports every live exiting task with its own ids |
| BpfBuilder.Join | crates/bpf-builder/src/lib.rs:29 | joining an absolute component replaces the base; otherwise one separator between base and component |
| BpfBuilder.LastDot | crates/bpf-builder/src/lib.rs:31 | finds the last dot of a name, or reports there is none |
| BpfBuilder.FileStem | crates/bpf-builder/src/lib.rs:31-35 | `.` and `..` have no stem, and every other name has one that is a prefix of it; a dot-free name, or one whose only dot is the leading one, is its own stem; otherwise (last dot after position 0) stem, dot and extension rebuild the name |
| BpfBuilder.ResolveArch | crates/bpf-builder/src/lib.rs:107-119 | the `bpf` target takes `CARGO_CFG_BPF_TARGET_ARCH`, defaulting to x86_64; other targets are kept |
| BpfBuilder.TargetArchDefine | crates/bpf-builder/src/lib.rs:130-138 | x86_64, aarch64 and riscv64 map to x86, arm64 and riscv; anything else is kept |
| BpfBuilder.TargetArchDefineIdempotent | crates/bpf-builder/src/lib.rs:130-138 | mapping twice is mapping once |
| BpfBuilder.ClangArgs | crates/bpf-builder/src/lib.rs:121-142 | 13 fixed arguments plus the extras, in order: the two include dirs, then `-gdwarf-4 -O2 -target bpf -c -Werror -fno-stack-protector`, the arch define at 9, the extras, then source, `-o`, output |
| BpfBuilder.ClangCommand | crates/bpf-builder/src/lib.rs:106-142 | the program is `CLANG` when set and `clang` otherwise; its arguments are those of `ClangArgs` for the resolved architecture; no working directory or environment change |
| BpfBuilder.RunTool | crates/bpf-builder/src/lib.rs:143-148 | one command spawned; success iff it exits 0; a failed exit gives the bail message; a spawn error gets the context |
| BpfBuilder.Compile | crates/bpf-builder/src/lib.rs:102-151 | panics with nothing spawned without `CARGO_CFG_TARGET_ARCH`; otherwise one clang run that succeeds iff it exits 0 |
| BpfBuilder.Strip | crates/bpf-builder/src/lib.rs:153-169 | one `llvm-strip -g` run that succeeds iff it exits 0 |
| BpfBuilder.FirstFailure | crates/bpf-builder/src/lib.rs:31-37 | the index of the first step that did not end normally; all earlier ones did |
| BpfBuilder.SpawnedCons | crates/bpf-builder/src/lib.rs:31-37 | the first step's commands come before those of the steps after it |
| BpfBuilder.Sequence | crates/bpf-builder/src/lib.rs:31-39 | `?`-chained steps end normally iff no step fails |
| BpfBuilder.SequenceStopsAtFirstFailure | crates/bpf-builder/src/lib.rs:31-39 | `?`-chained steps spawn exactly the commands up to the first failure, which ends the run with its context on top; with no failure, all commands and success |
| BpfBuilder.Build | crates/bpf-builder/src/lib.rs:19-40 | without `OUT_DIR` it fails before spawning; otherwise it succeeds iff none of its four steps fails, spawns exactly the commands of the steps up to and including the first failing one, and ends with that step's error under its context |
| BpfBuilder.BuildShim | crates/bpf-builder/src/lib.rs:84-100 | without `OUT_DIR` it fails; otherwise one bitcode compile into `OUT_DIR/vmlinux_access.bpf.o` |
| BpfBuilder.RemovedVars | crates/bpf-builder/src/lib.rs:50-65 | the variables removed are `RUSTUP_TOOLCHAIN`, `RUSTC`, `RUSTDOC` and every set variable whose name starts with `CARGO_`, and no others |
| BpfBuilder.BuildRust | crates/bpf-builder/src/lib.rs:42-73 | one rustup command; success iff it exits 0; a failed exit gives the bail message; a spawn error passes on bare |
| BuilderProperties.BuildPlan | crates/bpf-builder/src/lib.rs:31-37 | `build` plans four commands |
| BuilderProperties.BuildStepsFollowPlan | crates/bpf-builder/src/lib.rs:31-37 | step i spawns plan command i under the i-th context and fails with the i-th message |
| BuilderProperties.SpawnedOfSingles | crates/bpf-builder/src/lib.rs:31-37 | the first n steps of one command each spawn exactly the first n of those commands, in order |
| BuilderProperties.BuildSucceedsIffAllStepsSucceed | crates/bpf-builder/src/lib.rs:19-40 | `build` succeeds iff all four tools exit 0, and then it has spawned exactly the plan |
| BuilderProperties.BuildStopsAtFirstFailure | crates/bpf-builder/src/lib.rs:31-37 | the first tool that exits non-zero stops `build` after spawning the plan up to it, with that step's context over its message |
| BuilderProperties.BuildVariants | crates/bpf-builder/src/lib.rs:29-37 | a plain (non-empty, separator-free), dot-free name yields `name.5_13.bpf.o` with `-DVERSION_5_13` and `name.5_5.bpf.o` with no define, each stripped next |
| BuilderProperties.BuildPanicsWithoutTargetArch | crates/bpf-builder/src/lib.rs:108 | with `OUT_DIR` but no target architecture, `build` panics before spawning |
| BuilderProperties.ShimFlags | crates/bpf-builder/src/lib.rs:84-89 | the shim build is one clang run ending `-emit-llvm -DSHIM src -o OUT_DIR/vmlinux_access.bpf.o` |
| BuilderProperties.BpfTargetDefaultsToX86 | crates/bpf-builder/src/lib.rs:113-116 | the `bpf` target without a host arch uses the x86_64 headers and `__TARGET_ARCH_x86` |
| BuilderProperties.BuildRustScrubsEnv | crates/bpf-builder/src/lib.rs:49-65 | the child runs in the crate directory; its environment is the parent's minus RUSTUP_TOOLCHAIN, RUSTC, RUSTDOC and every `CARGO_*`, with the other values kept |
| PulsarCli.FilterRule | src/pulsar/mod.rs:69-99 | type without condition and condition without type are the two errors; neither gives no rule; both give the unnamed ad-hoc rule |
| PulsarCli.ShouldPrint | src/pulsar/mod.rs:106-112 | with a rule, an event is printed iff the rule matches, whatever `--all` and the threat field say; without one, iff `--all` is set or the event carries a threat |
| PulsarCli.EventsBeforeError | src/pulsar/mod.rs:103-115 | the events before the stream's first read error, in order |
| PulsarCli.Watch | src/pulsar/mod.rs:103-118 | prints exactly the selected events read before the first error, and each printed event passes the filter; ends with the read error under its context, or with "event stream ended" |
| PulsarCli.EventsBeforeErrorSplit | src/pulsar/mod.rs:103-115 | the events of an error-free prefix ending at an error or the end are the events before the first error |
| PulsarCli.EventsOf | src/pulsar/mod.rs:105 | an error-free prefix yields one event per read |
| PulsarCli.EventsOfSnoc | src/pulsar/mod.rs:103-105 | reading one more event extends the events by it |
| PulsarCli.SelectedAppend | src/pulsar/mod.rs:105-112 | one more event is printed iff it passes the filter |
| PulsarCli.SelectedOnlyPrintable | src/pulsar/mod.rs:105-112 | every selected event passes the filter |
| PulsarCli.EventLines | src/pulsar/mod.rs:108-111 | one printed line per selected event, in order |
| PulsarCli.CompiledRule | src/pulsar/mod.rs:69-99 | option errors come first, then a rule-compilation error; otherwise the compiled rule or none |
| PulsarCli.RunMonitor | src/pulsar/mod.rs:64-119 | never ends normally; invalid options or a rule that does not compile fail before any call; otherwise the one stream call, the printed lines are the selected events before the first error, and the run ends with that read error under "error reading from websocket" or with "event stream ended" |
| PulsarCli.CommandCall | src/pulsar/mod.rs:28-63 | the one API call of each sub-command and the fixed confirmation it prints |
| PulsarCli.ConfigCall | src/pulsar/mod.rs:42-63 | `--all` wins over a module, which wins over an assignment; with none of them, unreachable |
| PulsarCli.ConfigPrecedence | src/pulsar/mod.rs:42-47 | options that lose the precedence do not change the call |
| PulsarCli.Issue | src/pulsar/mod.rs:29-61 | one call; success iff it replies; prints the confirmation, or the reply when there is none; a failed call prints nothing |
| PulsarCli.RunCli | src/pulsar/mod.rs:17-123 | a connection error ends the run before any call; each other sub-command makes its one call and prints its confirmation or the reply; config with no option panics; `monitor` always fails: invalid filters fail before the stream call, otherwise it opens the stream, prints the selected events before the first error and ends with the read error under its context or with "event stream ended" |
| PulsarCli.ThreatsOnly | src/pulsar/mod.rs:110-111 | without a rule or `--all`, the printed events are exactly the threats |

## Left out

- Per-CPU staging, interest propagation and the rule maps: the maps are declared (crates/bpf-programs/process-monitor/src/maps.rs:16-43) and carried in `ProcessMonitor.Maps`, but neither handler reads or writes them. No staging, interest or encoding code exists in the modelled files, so there is nothing to model.
- What the perf channel does after `output`: per-CPU ordering, drops when a reader is slow, and the 1024-entry array. The model only appends to a log.
- CO-RE relocation and real kernel memory layout: the heap is abstract. A faulting read is modelled as the all-zero record.
- The panic handler and the other aya attributes and macros.
- Commented-out code, such as the live-counter check and the group-leader pid in the exit handler.
- The shim header's prototypes, including the misspelled `linux_bimprm_file` declaration: only the definitions are modelled.
- Exec, change-parent and cgroup events: they are declared but no handler builds them. Only their shapes are modelled.
- Timestamps: both handlers write 0, and the model does the same.
- `c_char` is modelled as signed 8-bit, as on x86_64.
- The `ProbeCtx` argument read: it is modelled as `Option<Ptr>` because the read itself is aya code.
- `cargo:` directives printed by the build helper: `rerun-if-changed`, link search and link lib. They are output to cargo and have no effect on the result. For the same reason the `headers` argument of `build_shim` does not affect the model.
- `to_string_lossy` and non-Unicode environment values. `env::var` can also fail with `NotUnicode`, and `env::vars` panics on non-Unicode keys; the environment is a map of strings.
- BpfBuilder.Join: models `PathBuf::join` for a single component only (no Windows prefixes, no `.` or `..` normalisation).
- BpfBuilder.FileStem: models `Path::file_stem` for a single plain file name only; a name containing a separator is not covered. Like `file_stem`, it gives no stem for `.` and `..`, which have no file name.
- BpfBuilder.WithExtension: assumes a plain file name, so the stem of the joined path is the stem of the name. It has no contract of its own; `BuilderProperties.BuildVariants` states what it yields for plain, dot-free names; an empty name, `.`, or one ending in a separator (where `with_extension` renames the output directory itself) is not covered. For `..`, which has no file name, `with_extension` appends nothing and the joined path is kept, as the model does.
- The process spawner: `Host.run` stands in for `Command::status`. Exit codes other than success or failure, and signals, are not distinguished.
- The API client, its async I/O and the websocket: `Engine` stands in for them. An endless event stream is not modelled, because the stream is a finite sequence. A client watching a stream that never ends never returns.
- Rule parsing and compilation (`parse_rule`, `compile::<Event>`): both are one opaque step that yields an error or a matcher.
- `term_print` formatting, and errors from writing to the terminal: printing is recorded as lines and cannot fail.
- Logging (`log::trace!`).
- The code generator and the build scripts that call the build helper.

## Findings

| source | as written | input that shows it | evidently intended | confidence | as-written member | corrected member |
|---|---|---|---|---|---|---|
| crates/bpf-programs/process-monitor/src/main.rs:184 | the exit tracepoint takes `ctx.as_ptr()`, the address of the raw-tracepoint argument block, as the `task_struct` pointer | exiting task with tgid 7 and exit code 256 at handle 0x1000, argument block at 0x2000: the event reports pid 0 and exit code 0 (or garbage) instead of 7 and 256 | read the task from the tracepoint's first argument (`args[0]`) | medium, not executed: relies on aya's raw-tracepoint context being a pointer to the argument array | ProcessMonitor.SchedProcessExit, ProbeProperties.ExitTracepointMisreadsContext | ProcessMonitor.SchedProcessExitFromArg, ProbeProperties.ExitTracepointReportsArgument |

=== FILE: bpf_builder.dfy ===
/**
  The build helper that compiles probe programs with clang and strips them.

  The host is abstract: its environment is a map, the include directory of
  the helper crate is a parameter, and running a command yields only whether
  it could be spawned and whether it exited successfully. A run of a helper
  records the commands it spawned, in order, and how it ended.
 */
module BpfBuilder {
  import opened Common

  type Env = map<string, string>

  const CLANG_DEFAULT := "clang"
  const LLVM_STRIP := "llvm-strip"

  /** `std::env::VarError::NotPresent` as `?` reports it. */
  const VAR_NOT_PRESENT := "environment variable not found"
  /** The panic of `unwrap()` on a missing variable. */
  const UNWRAP_NOT_PRESENT := "called `Result::unwrap()` on an `Err` value: NotPresent"

  const COMPILE_FAILED := "Failed to compile eBPF program"
  const STRIP_FAILED := "Failed strip eBPF program"

  datatype Command = Command(program: string, args: seq<string>, cwd: Option<string>, envRemove: set<string>)

  datatype ToolStatus = Exited(success: bool) | SpawnFailed(message: string)

  datatype Host = Host(env: Env, includePath: string, run: Command -> ToolStatus)

  datatype BuildRun = BuildRun(commands: seq<Command>, outcome: Outcome)

  // Paths

  /** `PathBuf::join` of one relative or absolute component (no trailing-separator doubling). */
  function Join(dir: string, file: string): (p: string)
    ensures |file| > 0 && file[0] == '/' ==> p == file
    ensures dir == [] ==> p == file
    ensures dir != [] && (|file| == 0 || file[0] != '/') ==>
              p == dir + (if dir[|dir| - 1] == '/' then "" else "/") + file
  {
    if |file| > 0 && file[0] == '/' then file
    else if dir == [] then file
    else if dir[|dir| - 1] == '/' then dir + file
    else dir + "/" + file
  }

  function LastDot(s: string): (r: Option<nat>)
    ensures r.Some? ==> r.value < |s| && s[r.value] == '.'
    ensures r.Some? ==> forall j :: r.value < j < |s| ==> s[j] != '.'
    ensures r.None? ==> forall j :: 0 <= j < |s| ==> s[j] != '.'
    decreases |s|
  {
    if s == [] then None
    else if s[|s| - 1] == '.' then Some(|s| - 1)
    else LastDot(s[..|s| - 1])
  }

  /**
    `Path::file_stem` of a single file name: everything before the last dot,
    or the whole name when it has no dot or its only dot is the leading one.
    The names `.` and `..` are not file names at all, so they have no stem.
   */
  function FileStem(name: string): (stem: Option<string>)
    ensures stem.None? <==> name == "." || name == ".."
    ensures stem.Some? ==> stem.value <= name
    ensures (forall j :: 0 <= j < |name| ==> name[j] != '.') ==> stem == Some(name)
    ensures name != "." && LastDot(name) == Some(0) ==> stem == Some(name)
    ensures name != ".." && LastDot(name).Some? && LastDot(name).value > 0 ==>
              stem.Some? && stem.value + "." + name[LastDot(name).value + 1..] == name
  {
    if name == "." || name == ".." then
      assert name[0] == '.';
      None
    else match LastDot(name)
      case None => Some(name)
      case Some(i) => if i == 0 then Some(name) else Some(name[..i])
  }

  /**
    `dir.join(name).with_extension(ext)` for a plain file name and a non-empty
    extension; `..` has no stem, so the joined path is kept as it is.
    (For `.` the joined path normalises to `dir`, whose own stem Rust would
    rename; that case is not modelled.)
   */
  function WithExtension(dir: string, name: string, ext: string): string {
    var stem := FileStem(name);
    Join(dir, if stem.Some? then stem.value + "." + ext else name)
  }

  // Architecture

  /**
    The architecture whose headers the build uses: a `bpf` target takes the
    host architecture from `CARGO_CFG_BPF_TARGET_ARCH`, defaulting to x86_64.
   */
  function ResolveArch(targetArch: string, env: Env): (arch: string)
    ensures targetArch != "bpf" ==> arch == targetArch
    ensures targetArch == "bpf" && "CARGO_CFG_BPF_TARGET_ARCH" in env ==> arch == env["CARGO_CFG_BPF_TARGET_ARCH"]
    ensures targetArch == "bpf" && "CARGO_CFG_BPF_TARGET_ARCH" !in env ==> arch == "x86_64"
  {
    if targetArch == "bpf" then
      if "CARGO_CFG_BPF_TARGET_ARCH" in env then env["CARGO_CFG_BPF_TARGET_ARCH"] else "x86_64"
    else targetArch
  }

  /** The kernel's name for an architecture, as `__TARGET_ARCH_` expects it. */
  function TargetArchDefine(arch: string): (kernelArch: string)
    ensures arch == "x86_64" ==> kernelArch == "x86"
    ensures arch == "aarch64" ==> kernelArch == "arm64"
    ensures arch == "riscv64" ==> kernelArch == "riscv"
    ensures arch != "x86_64" && arch != "aarch64" && arch != "riscv64" ==> kernelArch == arch
  {
    match arch
    case "x86_64" => "x86"
    case "aarch64" => "arm64"
    case "riscv64" => "riscv"
    case _ => arch
  }

  /** Kernel names are fixed points: mapping twice is mapping once. */
  lemma TargetArchDefineIdempotent(arch: string)
    ensures TargetArchDefine(TargetArchDefine(arch)) == TargetArchDefine(arch)
  {
  }

  // Tools

  function ClangArgs(includePath: string, arch: string, extra: seq<string>, source: string, out: string): (args: seq<string>)
    ensures |args| == 13 + |extra|
    ensures args[0] == "-I" + includePath && args[1] == "-I" + Join(includePath, arch)
    ensures args[2..9] == ["-gdwarf-4", "-O2", "-target", "bpf", "-c", "-Werror", "-fno-stack-protector"]
    ensures args[9] == "-D__TARGET_ARCH_" + TargetArchDefine(arch)
    ensures args[10..10 + |extra|] == extra
    ensures args[10 + |extra|..] == [source, "-o", out]
  {
    ["-I" + includePath, "-I" + Join(includePath, arch),
     "-gdwarf-4", "-O2", "-target", "bpf", "-c", "-Werror", "-fno-stack-protector",
     "-D__TARGET_ARCH_" + TargetArchDefine(arch)]
    + extra + [source, "-o", out]
  }

  /** The clang invocation, once `CARGO_CFG_TARGET_ARCH` is known. */
  function ClangCommand(host: Host, targetArch: string, source: string, out: string, extra: seq<string>): (cmd: Command)
    ensures cmd.program == (if "CLANG" in host.env then host.env["CLANG"] else CLANG_DEFAULT)
    ensures cmd.args == ClangArgs(host.includePath, ResolveArch(targetArch, host.env), extra, source, out)
    ensures cmd.cwd == None && cmd.envRemove == {}
  {
    var clang := if "CLANG" in host.env then host.env["CLANG"] else CLANG_DEFAULT;
    Command(clang, ClangArgs(host.includePath, ResolveArch(targetArch, host.env), extra, source, out), None, {})
  }

  /** Runs one spawned tool: spawning errors carry `context`, a failed exit carries `failure`. */
  function RunTool(host: Host, cmd: Command, context: string, failure: string): (r: BuildRun)
    ensures r.commands == [cmd]
    ensures r.outcome.Done? <==> host.run(cmd) == Exited(true)
    ensures host.run(cmd) == Exited(false) ==> r.outcome == Failed([failure])
    ensures host.run(cmd).SpawnFailed? ==> r.outcome == Failed([context, host.run(cmd).message])
  {
    match host.run(cmd)
    case SpawnFailed(m) => BuildRun([cmd], Failed([context, m]))
    case Exited(ok) => BuildRun([cmd], if ok then Done else Failed([failure]))
  }

  /** `compile`: panics without a target architecture, otherwise spawns clang once. */
  function Compile(host: Host, source: string, out: string, extra: seq<string>): (r: BuildRun)
    ensures "CARGO_CFG_TARGET_ARCH" !in host.env ==> r == BuildRun([], Panicked(UNWRAP_NOT_PRESENT))
    ensures "CARGO_CFG_TARGET_ARCH" in host.env ==>
              var cmd := ClangCommand(host, host.env["CARGO_CFG_TARGET_ARCH"], source, out, extra);
              && r.commands == [cmd]
              && (r.outcome.Done? <==> host.run(cmd) == Exited(true))
              && (host.run(cmd) == Exited(false) ==> r.outcome == Failed([COMPILE_FAILED]))
  {
    if "CARGO_CFG_TARGET_ARCH" !in host.env then BuildRun([], Panicked(UNWRAP_NOT_PRESENT))
    else
      var cmd := ClangCommand(host, host.env["CARGO_CFG_TARGET_ARCH"], source, out, extra);
      RunTool(host, cmd, "Failed to execute clang", COMPILE_FAILED)
  }

  function StripCommand(out: string): Command {
    Command(LLVM_STRIP, ["-g", out], None, {})
  }

  /** `strip`: spawns `llvm-strip -g` on the object once. */
  function Strip(host: Host, out: string): (r: BuildRun)
    ensures r.commands == [StripCommand(out)]
    ensures r.outcome.Done? <==> host.run(StripCommand(out)) == Exited(true)
    ensures host.run(StripCommand(out)) == Exited(false) ==> r.outcome == Failed([STRIP_FAILED])
  {
    RunTool(host, StripCommand(out), "Failed to execute llvm-strip", STRIP_FAILED)
  }

  // Sequencing with `?`

  /** A step already evaluated, with the context `build` attaches to its error. */
  datatype Step = Step(run: BuildRun, context: string)

  /** The commands spawned by the first `n` steps, in order. */
  function Spawned(steps: seq<Step>, n: nat): seq<Command>
    requires n <= |steps|
    decreases n
  {
    if n == 0 then [] else Spawned(steps, n - 1) + steps[n - 1].run.commands
  }

  /** Peeling off the first step: its commands come before those of the rest. */
  lemma {:induction false} SpawnedCons(steps: seq<Step>, n: nat)
    requires 0 < |steps| && n < |steps|
    ensures Spawned(steps, n + 1) == steps[0].run.commands + Spawned(steps[1..], n)
    decreases n
  {
    if n > 0 {
      SpawnedCons(steps, n - 1);
    }
  }

  /** Index of the first step that did not end normally, or the step count. */
  function FirstFailure(steps: seq<Step>): (k: nat)
    ensures k <= |steps|
    ensures forall i :: 0 <= i < k ==> steps[i].run.outcome.Done?
    ensures k < |steps| ==> !steps[k].run.outcome.Done?
    decreases |steps|
  {
    if steps == [] then 0
    else if !steps[0].run.outcome.Done? then 0
    else 1 + FirstFailure(steps[1..])
  }

  /**
    Steps joined by `.context(..)?`: each step runs only if every earlier one
    ended normally; the first that does not ends the whole run, its error
    with its context on top. A panic is not given a context.
   */
  function Sequence(steps: seq<Step>): (r: BuildRun)
    ensures r.outcome.Done? <==> FirstFailure(steps) == |steps|
    decreases |steps|
  {
    if steps == [] then BuildRun([], Done)
    else if !steps[0].run.outcome.Done? then
      BuildRun(steps[0].run.commands, WithContext(steps[0].run.outcome, steps[0].context))
    else
      var rest := Sequence(steps[1..]);
      BuildRun(steps[0].run.commands + rest.commands, rest.outcome)
  }

  /**
    The commands spawned are those of every step up to and including the
    first that fails, and that step's outcome, under its context, is the
    result; with no failure, every step's commands and success.
   */
  lemma {:induction false} SequenceStopsAtFirstFailure(steps: seq<Step>)
    ensures FirstFailure(steps) == |steps| ==> Sequence(steps) == BuildRun(Spawned(steps, |steps|), Done)
    ensures FirstFailure(steps) < |steps| ==>
              Sequence(steps) == BuildRun(Spawned(steps, FirstFailure(steps) + 1),
                                          WithContext(steps[FirstFailure(steps)].run.outcome, steps[FirstFailure(steps)].context))
    decreases |steps|
  {
    if steps != [] && steps[0].run.outcome.Done? {
      SequenceStopsAtFirstFailure(steps[1..]);
      var k := FirstFailure(steps[1..]);
      SpawnedCons(steps, if k < |steps| - 1 then k + 1 else k);
    }
  }

  // The three entry points

  /** The four steps of `build`, in source order, once `OUT_DIR` is known. */
  function BuildSteps(host: Host, outDir: string, name: string, source: string): seq<Step> {
    var out513 := WithExtension(outDir, name, "5_13.bpf.o");
    var out55 := WithExtension(outDir, name, "5_5.bpf.o");
    [ Step(Compile(host, source, out513, ["-DVERSION_5_13"]), "Error compiling 5.13 version"),
      Step(Strip(host, out513), "Error stripping 5.13 version"),
      Step(Compile(host, source, out55, []), "Error compiling 5.5 version"),
      Step(Strip(host, out55), "Error stripping 5.5 version") ]
  }

  function Build(host: Host, name: string, source: string): (r: BuildRun)
    ensures "OUT_DIR" !in host.env ==> r == BuildRun([], Failed([VAR_NOT_PRESENT]))
    ensures "OUT_DIR" in host.env ==>
              var steps := BuildSteps(host, host.env["OUT_DIR"], name, source);
              var k := FirstFailure(steps);
              && (r.outcome.Done? <==> k == 4)
              && r.commands == Spawned(steps, if k < 4 then k + 1 else 4)
              && (k < 4 ==> r.outcome == WithContext(steps[k].run.outcome, steps[k].context))
  {
    if "OUT_DIR" !in host.env then BuildRun([], Failed([VAR_NOT_PRESENT]))
    else
      var steps := BuildSteps(host, host.env["OUT_DIR"], name, source);
      SequenceStopsAtFirstFailure(steps);
      Sequence(steps)
  }

  function BuildShim(host: Host, shimSource: string, headers: seq<string>): (r: BuildRun)
    ensures "OUT_DIR" !in host.env ==> r == BuildRun([], Failed([VAR_NOT_PRESENT]))
    ensures "OUT_DIR" in host.env ==>
              r == Compile(host, shimSource, Join(host.env["OUT_DIR"], "vmlinux_access.bpf.o"), ["-emit-llvm", "-DSHIM"])
  {
    if "OUT_DIR" !in host.env then BuildRun([], Failed([VAR_NOT_PRESENT]))
    else
      assert FileStem("vmlinux_access") == Some("vmlinux_access");
      assert "vmlinux_access" + "." + "bpf.o" == "vmlinux_access.bpf.o";
      Compile(host, shimSource, WithExtension(host.env["OUT_DIR"], "vmlinux_access", "bpf.o"), ["-emit-llvm", "-DSHIM"])
  }

  /** The variables `build_rust` removes from the child's environment. */
  function RemovedVars(env: Env): (removed: set<string>)
    ensures "RUSTUP_TOOLCHAIN" in removed && "RUSTC" in removed && "RUSTDOC" in removed
    ensures forall k :: k in env && "CARGO_" <= k ==> k in removed
    ensures forall k :: k in removed ==>
              k == "RUSTUP_TOOLCHAIN" || k == "RUSTC" || k == "RUSTDOC" || (k in env && "CARGO_" <= k)
  {
    {"RUSTUP_TOOLCHAIN", "RUSTC", "RUSTDOC"} + (set k | k in env && "CARGO_" <= k)
  }

  /** The environment a command's child process starts with. */
  function ChildEnv(env: Env, cmd: Command): map<string, string> {
    map k | k in env && k !in cmd.envRemove :: env[k]
  }

  function RustupCommand(env: Env, cratePath: string): Command {
    Command("rustup", ["run", "nightly", "cargo", "build", "--release"], Some(cratePath), RemovedVars(env))
  }

  /** `build_rust`: one nightly cargo build in the crate, spawn errors passed on bare. */
  function BuildRust(host: Host, cratePath: string): (r: BuildRun)
    ensures r.commands == [RustupCommand(host.env, cratePath)]
    ensures r.outcome.Done? <==> host.run(RustupCommand(host.env, cratePath)) == Exited(true)
    ensures host.run(RustupCommand(host.env, cratePath)) == Exited(false) ==> r.outcome == Failed([COMPILE_FAILED])
    ensures host.run(RustupCommand(host.env, cratePath)).SpawnFailed? ==>
              r.outcome == Failed([host.run(RustupCommand(host.env, cratePath)).message])
  {
    var cmd := RustupCommand(host.env, cratePath);
    match host.run(cmd)
    case SpawnFailed(m) => BuildRun([cmd], Failed([m]))
    case Exited(ok) => BuildRun([cmd], if ok then Done else Failed([COMPILE_FAILED]))
  }
}

=== FILE: builder_properties.dfy ===
/**
  What the build helper guarantees about the objects it produces, the order
  of its steps and the environment it hands to cargo.
 */
module BuilderProperties {
  import opened Common
  import opened BpfBuilder

  /** A plain file name: one non-empty path component. */
  predicate PlainName(name: string) {
    name != [] && forall j :: 0 <= j < |name| ==> name[j] != '/'
  }

  /** A host on which `build` reaches its tools: both variables it reads are set. */
  predicate BuildReady(host: Host) {
    "OUT_DIR" in host.env && "CARGO_CFG_TARGET_ARCH" in host.env
  }

  /** The four commands `build` spawns when nothing fails, in order. */
  function BuildPlan(host: Host, name: string, source: string): (plan: seq<Command>)
    requires BuildReady(host)
    ensures |plan| == 4
  {
    var outDir := host.env["OUT_DIR"];
    var arch := host.env["CARGO_CFG_TARGET_ARCH"];
    var out513 := WithExtension(outDir, name, "5_13.bpf.o");
    var out55 := WithExtension(outDir, name, "5_5.bpf.o");
    [ ClangCommand(host, arch, source, out513, ["-DVERSION_5_13"]), StripCommand(out513),
      ClangCommand(host, arch, source, out55, []), StripCommand(out55) ]
  }

  const BUILD_CONTEXTS := ["Error compiling 5.13 version", "Error stripping 5.13 version",
                           "Error compiling 5.5 version", "Error stripping 5.5 version"]
  const BUILD_FAILURES := [COMPILE_FAILED, STRIP_FAILED, COMPILE_FAILED, STRIP_FAILED]

  lemma BuildStepsFollowPlan(host: Host, name: string, source: string)
    requires BuildReady(host)
    ensures var steps := BuildSteps(host, host.env["OUT_DIR"], name, source);
            var plan := BuildPlan(host, name, source);
            && |steps| == 4
            && forall i :: 0 <= i < 4 ==>
                 && steps[i].run.commands == [plan[i]]
                 && steps[i].context == BUILD_CONTEXTS[i]
                 && (steps[i].run.outcome.Done? <==> host.run(plan[i]) == Exited(true))
                 && (host.run(plan[i]) == Exited(false) ==> steps[i].run.outcome == Failed([BUILD_FAILURES[i]]))
  {
  }

  lemma {:induction false} SpawnedOfSingles(steps: seq<Step>, cmds: seq<Command>, n: nat)
    requires |steps| == |cmds| && n <= |steps|
    requires forall i :: 0 <= i < n ==> steps[i].run.commands == [cmds[i]]
    ensures Spawned(steps, n) == cmds[..n]
    decreases n
  {
    if n > 0 {
      SpawnedOfSingles(steps, cmds, n - 1);
      assert cmds[..n] == cmds[..n - 1] + [cmds[n - 1]];
    }
  }

  /**
    `build` succeeds exactly when all four tools exit successfully, and then
    it has spawned the four commands of the plan in order.
   */
  lemma BuildSucceedsIffAllStepsSucceed(host: Host, name: string, source: string)
    requires BuildReady(host)
    ensures var plan := BuildPlan(host, name, source);
            && (Build(host, name, source).outcome.Done? <==> forall i :: 0 <= i < 4 ==> host.run(plan[i]) == Exited(true))
            && (Build(host, name, source).outcome.Done? ==> Build(host, name, source).commands == plan)
  {
    var steps := BuildSteps(host, host.env["OUT_DIR"], name, source);
    var plan := BuildPlan(host, name, source);
    BuildStepsFollowPlan(host, name, source);
    SequenceStopsAtFirstFailure(steps);
    var k := FirstFailure(steps);
    if k == 4 {
      SpawnedOfSingles(steps, plan, 4);
    } else {
      assert !steps[k].run.outcome.Done?;
    }
  }

  /**
    The first failing tool stops `build`: if the first `k` commands exit
    successfully and command `k` exits unsuccessfully, exactly the commands
    up to `k` were spawned and the error is that step's message under that
    step's context.
   */
  lemma BuildStopsAtFirstFailure(host: Host, name: string, source: string, k: nat)
    requires BuildReady(host) && k < 4
    requires forall i :: 0 <= i < k ==> host.run(BuildPlan(host, name, source)[i]) == Exited(true)
    requires host.run(BuildPlan(host, name, source)[k]) == Exited(false)
    ensures Build(host, name, source) ==
              BuildRun(BuildPlan(host, name, source)[..k + 1], Failed([BUILD_CONTEXTS[k], BUILD_FAILURES[k]]))
  {
    var steps := BuildSteps(host, host.env["OUT_DIR"], name, source);
    var plan := BuildPlan(host, name, source);
    BuildStepsFollowPlan(host, name, source);
    SequenceStopsAtFirstFailure(steps);
    assert FirstFailure(steps) == k;
    SpawnedOfSingles(steps, plan, k + 1);
    assert steps[k].run.outcome == Failed([BUILD_FAILURES[k]]);
    assert Build(host, name, source).commands == plan[..k + 1];
  }

  /**
    For a plain, dot-free name, the two objects: `name.5_13.bpf.o` built with `-DVERSION_5_13` and
    `name.5_5.bpf.o` built with no extra define, each stripped right after.
   */
  lemma BuildVariants(host: Host, name: string, source: string)
    requires BuildReady(host)
    requires PlainName(name)
    requires forall j :: 0 <= j < |name| ==> name[j] != '.'
    ensures var plan := BuildPlan(host, name, source);
            var outDir := host.env["OUT_DIR"];
            && plan[0].args[10..11] == ["-DVERSION_5_13"]
            && plan[0].args[11..] == [source, "-o", Join(outDir, name + ".5_13.bpf.o")]
            && plan[1] == StripCommand(Join(outDir, name + ".5_13.bpf.o"))
            && plan[2].args[10..] == [source, "-o", Join(outDir, name + ".5_5.bpf.o")]
            && plan[3] == StripCommand(Join(outDir, name + ".5_5.bpf.o"))
  {
    assert FileStem(name) == Some(name);
    assert name + "." + "5_13.bpf.o" == name + ".5_13.bpf.o";
    assert name + "." + "5_5.bpf.o" == name + ".5_5.bpf.o";
  }

  /** Without a target architecture `compile` panics before spawning anything, and so does `build`. */
  lemma BuildPanicsWithoutTargetArch(host: Host, name: string, source: string)
    requires "OUT_DIR" in host.env && "CARGO_CFG_TARGET_ARCH" !in host.env
    ensures Build(host, name, source) == BuildRun([], Panicked(UNWRAP_NOT_PRESENT))
  {
    var steps := BuildSteps(host, host.env["OUT_DIR"], name, source);
    assert FirstFailure(steps) == 0;
    SequenceStopsAtFirstFailure(steps);
  }

  /** The shim is one clang run emitting LLVM bitcode with `SHIM` defined, and no strip. */
  lemma ShimFlags(host: Host, shimSource: string, headers: seq<string>)
    requires BuildReady(host)
    ensures var r := BuildShim(host, shimSource, headers);
            && |r.commands| == 1
            && r.commands[0].args[10..] ==
                 ["-emit-llvm", "-DSHIM", shimSource, "-o", Join(host.env["OUT_DIR"], "vmlinux_access.bpf.o")]
  {
  }

  /**
    Building the probe program for the `bpf` target without a host
    architecture setting uses the x86_64 headers and `__TARGET_ARCH_x86`.
   */
  lemma BpfTargetDefaultsToX86(host: Host, source: string, out: string, extra: seq<string>)
    requires "CARGO_CFG_BPF_TARGET_ARCH" !in host.env
    ensures var cmd := ClangCommand(host, "bpf", source, out, extra);
            && cmd.args[1] == "-I" + Join(host.includePath, "x86_64")
            && cmd.args[9] == "-D__TARGET_ARCH_x86"
  {
    assert "-D__TARGET_ARCH_" + "x86" == "-D__TARGET_ARCH_x86";
  }

  /**
    `build_rust` hands cargo the current environment minus `RUSTUP_TOOLCHAIN`,
    `RUSTC`, `RUSTDOC` and every `CARGO_*` variable, with every other
    variable's value unchanged.
   */
  lemma BuildRustScrubsEnv(host: Host, cratePath: string)
    ensures var cmd := BuildRust(host, cratePath).commands[0];
            var child := ChildEnv(host.env, cmd);
            && cmd.cwd == Some(cratePath)
            && cmd.args == ["run", "nightly", "cargo", "build", "--release"]
            && (forall k :: k in child <==>
                  k in host.env && k != "RUSTUP_TOOLCHAIN" && k != "RUSTC" && k != "RUSTDOC" && !("CARGO_" <= k))
            && (forall k :: k in child ==> child[k] == host.env[k])
  {
  }
}

=== FILE: common.dfy ===
/**
  Fixed-width integers, the C/Rust error carriers and the anyhow-style outcome
  shared by every other module of the model.
 */
module Common {

  /** C `char` on the x86_64 target, `c_int`, `c_long` and the unsigned widths. */
  type int8 = x: int | -0x80 <= x < 0x80
  type int32 = x: int | -0x8000_0000 <= x < 0x8000_0000
  type int64 = x: int | -0x8000_0000_0000_0000 <= x < 0x8000_0000_0000_0000
  type uint8 = x: int | 0 <= x < 0x100
  type uint16 = x: int | 0 <= x < 0x1_0000
  type uint32 = x: int | 0 <= x < 0x1_0000_0000
  type uint64 = x: int | 0 <= x < 0x1_0000_0000_0000_0000

  datatype Option<+T> = None | Some(value: T)

  /** Rust's `Result`, usable with `:-`. */
  datatype Result<+T, +E> = Ok(value: T) | Err(error: E) {
    predicate IsFailure() {
      Err?
    }

    function PropagateFailure<U>(): Result<U, E>
      requires Err?
    {
      Err(error)
    }

    function Extract(): T
      requires Ok?
    {
      value
    }
  }

  /**
    How a host-side program ends: normally, with an `anyhow::Error` whose
    context chain is listed outermost first, or by a panic.
   */
  datatype Outcome = Done | Failed(chain: seq<string>) | Panicked(message: string)

  /** `anyhow::Context::context`: put one more message on top of a failure. */
  function WithContext(o: Outcome, context: string): (r: Outcome)
    ensures o.Failed? ==> r.Failed? && r.chain == [context] + o.chain
    ensures !o.Failed? ==> r == o
  {
    if o.Failed? then Failed([context] + o.chain) else o
  }

  /** `i32::try_into::<u32>()`: fails exactly on negative values, otherwise keeps the value. */
  function TryIntoU32(x: int32): (r: Option<uint32>)
    ensures r.Some? <==> 0 <= x
    ensures r.Some? ==> r.value == x
  {
    if x < 0 then None else Some(x)
  }
}

=== FILE: events.dfy ===
/**
  The wire format shared by the probe program and its user-space reader.

  The `#[repr(C)]` union of the source becomes a closed sum type with seven
  cases; the `u32` discriminant travels beside it. The code fixes only two
  discriminants, fork = 0 and exit = 1, so only those two are named here.
 */
module Events {
  import opened Common

  /** Number of `u64` words in the side buffer for strings. */
  const BUFFER_WORDS: nat := 2048
  const BUFFER_BYTES: nat := BUFFER_WORDS * 8

  const FORK_EVENT: uint32 := 0
  const EXIT_EVENT: uint32 := 1

  /** Offset and length of one string inside the side buffer. */
  datatype BufferIndex = BufferIndex(start: uint16, len: uint16)

  datatype ForkEvent = ForkEvent(ppid: int32)
  datatype ExecEvent = ExecEvent(filename: BufferIndex, args: int32, argv: BufferIndex)
  datatype ExitEvent = ExitEvent(exitCode: uint32)
  datatype ChangeParentEvent = ChangeParentEvent(ppid: int32)
  /** Shared by `cgroup_mkdir` and `cgroup_rmdir`. */
  datatype CgroupEvent = CgroupEvent(path: BufferIndex, id: uint64)
  datatype CgroupAttachEvent = CgroupAttachEvent(pid: int32, path: BufferIndex, id: uint64)

  datatype ProcessEventVariant =
    | Fork(fork: ForkEvent)
    | Exec(exec: ExecEvent)
    | Exit(exit: ExitEvent)
    | ChangeParent(changeParent: ChangeParentEvent)
    | CgroupMkdir(cgroupMkdir: CgroupEvent)
    | CgroupRmdir(cgroupRmdir: CgroupEvent)
    | CgroupAttach(cgroupAttach: CgroupAttachEvent)

  datatype ProcessEventPayload = ProcessEventPayload(eventType: uint32, payload: ProcessEventVariant)

  type Words = s: seq<uint64> | |s| == BUFFER_WORDS witness seq(BUFFER_WORDS, _ => 0)

  /** A fixed block of 2048 words plus a `usize` fill length kept apart from it. */
  datatype Buffer = Buffer(len: uint64, buffer: Words)

  datatype ProcessEvent = ProcessEvent(timestamp: uint64, pid: int32, payload: ProcessEventPayload)

  /** Position of a variant in the union's declaration order. */
  function VariantOrdinal(v: ProcessEventVariant): (k: nat)
    ensures k < 7
    ensures k == 0 <==> v.Fork?
    ensures k == 2 <==> v.Exit?
  {
    match v
    case Fork(_) => 0
    case Exec(_) => 1
    case Exit(_) => 2
    case ChangeParent(_) => 3
    case CgroupMkdir(_) => 4
    case CgroupRmdir(_) => 5
    case CgroupAttach(_) => 6
  }

  /** The two cgroup directory events carry the same record. */
  function CgroupDirEvent(v: ProcessEventVariant): (r: Option<CgroupEvent>)
    ensures r.Some? <==> v.CgroupMkdir? || v.CgroupRmdir?
    ensures v.CgroupMkdir? ==> r == Some(v.cgroupMkdir)
    ensures v.CgroupRmdir? ==> r == Some(v.cgroupRmdir)
  {
    match v
    case CgroupMkdir(e) => Some(e)
    case CgroupRmdir(e) => Some(e)
    case _ => None
  }

  /**
    The union has seven members: every ordinal below seven belongs to some
    variant (and `VariantOrdinal` never reaches seven).
   */
  lemma SevenVariants(k: nat)
    requires k < 7
    ensures exists v :: VariantOrdinal(v) == k
  {
    var b := BufferIndex(0, 0);
    var witnesses := [
      Fork(ForkEvent(0)), Exec(ExecEvent(b, 0, b)), Exit(ExitEvent(0)),
      ChangeParent(ChangeParentEvent(0)), CgroupMkdir(CgroupEvent(b, 0)),
      CgroupRmdir(CgroupEvent(b, 0)), CgroupAttach(CgroupAttachEvent(0, b, 0))];
    assert VariantOrdinal(witnesses[k]) == k;
  }

  /**
    The two discriminants the code fixes agree with the live member: a fork
    payload is tagged 0 and an exit payload is tagged 1, in both directions.
   */
  predicate TagAgrees(p: ProcessEventPayload) {
    && (p.eventType == FORK_EVENT <==> p.payload.Fork?)
    && (p.eventType == EXIT_EVENT <==> p.payload.Exit?)
  }

  /**
    A string slot lies inside the side buffer. The 16-bit fields do not
    enforce this by themselves; nothing in the code checks it either.
   */
  predicate IndexInBuffer(i: BufferIndex) {
    i.start + i.len <= BUFFER_BYTES
  }

  /** A slot that the field widths allow but that lies outside the 16 KiB buffer. */
  lemma IndexMayLeaveBuffer()
    ensures !IndexInBuffer(BufferIndex(BUFFER_BYTES as uint16, 1))
  {
  }
}

=== FILE: kernel.dfy ===
/**
  The C field-access shim linked into the Rust probe program.

  Kernel memory is an abstract heap: one map per kernel struct type, from
  handle to a record of the fields the shim reads. Handle 0 is the null
  pointer. Every accessor checks its argument against null first and returns
  a fixed sentinel; otherwise it returns the named field of the object. A
  non-null handle the heap does not hold reads as the all-zero record, which
  is what the kernel's probe-read helper leaves in its destination when the
  read faults. Accessors take the heap as an argument and return only a
  value, so they cannot change it.
 */
module Kernel {
  import opened Common

  type Ptr = uint64

  const NULL: Ptr := 0

  /** `ULONG_MAX` as the shim header defines it: 2^64 - 1. */
  const ULONG_MAX: uint64 := 0xFFFF_FFFF_FFFF_FFFF

  datatype Cgroup = Cgroup(kn: Ptr)
  datatype File = File(fPathMnt: Ptr, fPathDentry: Ptr)
  datatype KernfsNode = KernfsNode(id: uint64)
  datatype LinuxBinprm = LinuxBinprm(file: Ptr, argc: int32, filename: Ptr)
  /** `live` is an `atomic_t`; only its `counter` is read. */
  datatype SignalStruct = SignalStruct(liveCounter: int32)
  datatype MmStruct = MmStruct(argStart: uint64, argEnd: uint64)
  /** `children` and `sibling` are `list_head`s; only their `next` is read. */
  datatype TaskStruct = TaskStruct(
    mm: Ptr,
    exitCode: int32,
    pid: int32,
    tgid: int32,
    parent: Ptr,
    childrenNext: Ptr,
    siblingNext: Ptr,
    groupLeader: Ptr,
    signal: Ptr)

  datatype Heap = Heap(
    cgroups: map<Ptr, Cgroup>,
    files: map<Ptr, File>,
    kernfsNodes: map<Ptr, KernfsNode>,
    binprms: map<Ptr, LinuxBinprm>,
    signals: map<Ptr, SignalStruct>,
    mms: map<Ptr, MmStruct>,
    tasks: map<Ptr, TaskStruct>)

  // Reads of a whole object through a non-null handle (zero-filled when the
  // handle does not name an object of that type).

  function CgroupAt(h: Heap, p: Ptr): Cgroup {
    if p in h.cgroups then h.cgroups[p] else Cgroup(NULL)
  }

  function FileAt(h: Heap, p: Ptr): File {
    if p in h.files then h.files[p] else File(NULL, NULL)
  }

  function KernfsNodeAt(h: Heap, p: Ptr): KernfsNode {
    if p in h.kernfsNodes then h.kernfsNodes[p] else KernfsNode(0)
  }

  function BinprmAt(h: Heap, p: Ptr): LinuxBinprm {
    if p in h.binprms then h.binprms[p] else LinuxBinprm(NULL, 0, NULL)
  }

  function SignalAt(h: Heap, p: Ptr): SignalStruct {
    if p in h.signals then h.signals[p] else SignalStruct(0)
  }

  function MmAt(h: Heap, p: Ptr): MmStruct {
    if p in h.mms then h.mms[p] else MmStruct(0, 0)
  }

  function TaskAt(h: Heap, p: Ptr): TaskStruct {
    if p in h.tasks then h.tasks[p] else TaskStruct(NULL, 0, 0, 0, NULL, NULL, NULL, NULL, NULL)
  }

  // struct cgroup

  function CgroupKn(h: Heap, cgrp: Ptr): (r: Ptr)
    ensures cgrp == NULL ==> r == NULL
    ensures cgrp != NULL && cgrp in h.cgroups ==> r == h.cgroups[cgrp].kn
    ensures cgrp !in h.cgroups ==> r == NULL
  {
    if cgrp == NULL then NULL else CgroupAt(h, cgrp).kn
  }

  // struct file

  function FileFPathMnt(h: Heap, file: Ptr): (r: Ptr)
    ensures file == NULL ==> r == NULL
    ensures file != NULL && file in h.files ==> r == h.files[file].fPathMnt
    ensures file !in h.files ==> r == NULL
  {
    if file == NULL then NULL else FileAt(h, file).fPathMnt
  }

  function FileFPathDentry(h: Heap, file: Ptr): (r: Ptr)
    ensures file == NULL ==> r == NULL
    ensures file != NULL && file in h.files ==> r == h.files[file].fPathDentry
    ensures file !in h.files ==> r == NULL
  {
    if file == NULL then NULL else FileAt(h, file).fPathDentry
  }

  // struct kernfs_node

  function KernfsNodeId(h: Heap, kn: Ptr): (r: uint64)
    ensures kn == NULL ==> r == ULONG_MAX
    ensures kn != NULL && kn in h.kernfsNodes ==> r == h.kernfsNodes[kn].id
    ensures kn != NULL && kn !in h.kernfsNodes ==> r == 0
  {
    if kn == NULL then ULONG_MAX else KernfsNodeAt(h, kn).id
  }

  // struct linux_binprm

  function LinuxBinprmFile(h: Heap, bprm: Ptr): (r: Ptr)
    ensures bprm == NULL ==> r == NULL
    ensures bprm != NULL && bprm in h.binprms ==> r == h.binprms[bprm].file
    ensures bprm !in h.binprms ==> r == NULL
  {
    if bprm == NULL then NULL else BinprmAt(h, bprm).file
  }

  function LinuxBinprmArgc(h: Heap, bprm: Ptr): (r: int32)
    ensures bprm == NULL ==> r == -1
    ensures bprm != NULL && bprm in h.binprms ==> r == h.binprms[bprm].argc
    ensures bprm != NULL && bprm !in h.binprms ==> r == 0
  {
    if bprm == NULL then -1 else BinprmAt(h, bprm).argc
  }

  function LinuxBinprmFilename(h: Heap, bprm: Ptr): (r: Ptr)
    ensures bprm == NULL ==> r == NULL
    ensures bprm != NULL && bprm in h.binprms ==> r == h.binprms[bprm].filename
    ensures bprm !in h.binprms ==> r == NULL
  {
    if bprm == NULL then NULL else BinprmAt(h, bprm).filename
  }

  // struct signal_struct

  function SignalStructLiveCounter(h: Heap, signal: Ptr): (r: int32)
    ensures signal == NULL ==> r == -1
    ensures signal != NULL && signal in h.signals ==> r == h.signals[signal].liveCounter
    ensures signal != NULL && signal !in h.signals ==> r == 0
  {
    if signal == NULL then -1 else SignalAt(h, signal).liveCounter
  }

  // struct mm_struct

  function MmStructArgStart(h: Heap, mm: Ptr): (r: uint64)
    ensures mm == NULL ==> r == ULONG_MAX
    ensures mm != NULL && mm in h.mms ==> r == h.mms[mm].argStart
    ensures mm != NULL && mm !in h.mms ==> r == 0
  {
    if mm == NULL then ULONG_MAX else MmAt(h, mm).argStart
  }

  function MmStructArgEnd(h: Heap, mm: Ptr): (r: uint64)
    ensures mm == NULL ==> r == ULONG_MAX
    ensures mm != NULL && mm in h.mms ==> r == h.mms[mm].argEnd
    ensures mm != NULL && mm !in h.mms ==> r == 0
  {
    if mm == NULL then ULONG_MAX else MmAt(h, mm).argEnd
  }

  // struct task_struct

  function TaskStructMm(h: Heap, task: Ptr): (r: Ptr)
    ensures task == NULL ==> r == NULL
    ensures task != NULL && task in h.tasks ==> r == h.tasks[task].mm
    ensures task !in h.tasks ==> r == NULL
  {
    if task == NULL then NULL else TaskAt(h, task).mm
  }

  function TaskStructExitCode(h: Heap, task: Ptr): (r: int32)
    ensures task == NULL ==> r == -1
    ensures task != NULL && task in h.tasks ==> r == h.tasks[task].exitCode
    ensures task != NULL && task !in h.tasks ==> r == 0
  {
    if task == NULL then -1 else TaskAt(h, task).exitCode
  }

  function TaskStructPid(h: Heap, task: Ptr): (r: int32)
    ensures task == NULL ==> r == -1
    ensures task != NULL && task in h.tasks ==> r == h.tasks[task].pid
    ensures task != NULL && task !in h.tasks ==> r == 0
  {
    if task == NULL then -1 else TaskAt(h, task).pid
  }

  function TaskStructTgid(h: Heap, task: Ptr): (r: int32)
    ensures task == NULL ==> r == -1
    ensures task != NULL && task in h.tasks ==> r == h.tasks[task].tgid
    ensures task != NULL && task !in h.tasks ==> r == 0
  {
    if task == NULL then -1 else TaskAt(h, task).tgid
  }

  function TaskStructParent(h: Heap, task: Ptr): (r: Ptr)
    ensures task == NULL ==> r == NULL
    ensures task != NULL && task in h.tasks ==> r == h.tasks[task].parent
    ensures task !in h.tasks ==> r == NULL
  {
    if task == NULL then NULL else TaskAt(h, task).parent
  }

  function TaskStructChildrenNext(h: Heap, task: Ptr): (r: Ptr)
    ensures task == NULL ==> r == NULL
    ensures task != NULL && task in h.tasks ==> r == h.tasks[task].childrenNext
    ensures task !in h.tasks ==> r == NULL
  {
    if task == NULL then NULL else TaskAt(h, task).childrenNext
  }

  function TaskStructSiblingNext(h: Heap, task: Ptr): (r: Ptr)
    ensures task == NULL ==> r == NULL
    ensures task != NULL && task in h.tasks ==> r == h.tasks[task].siblingNext
    ensures task !in h.tasks ==> r == NULL
  {
    if task == NULL then NULL else TaskAt(h, task).siblingNext
  }

  function TaskStructGroupLeader(h: Heap, task: Ptr): (r: Ptr)
    ensures task == NULL ==> r == NULL
    ensures task != NULL && task in h.tasks ==> r == h.tasks[task].groupLeader
    ensures task !in h.tasks ==> r == NULL
  {
    if task == NULL then NULL else TaskAt(h, task).groupLeader
  }

  function TaskStructSignal(h: Heap, task: Ptr): (r: Ptr)
    ensures task == NULL ==> r == NULL
    ensures task != NULL && task in h.tasks ==> r == h.tasks[task].signal
    ensures task !in h.tasks ==> r == NULL
  {
    if task == NULL then NULL else TaskAt(h, task).signal
  }

  /**
    Every pointer-returning accessor maps the null handle to the null handle,
    whatever the heap holds.
   */
  lemma PointerAccessorsNullOnNull(h: Heap)
    ensures CgroupKn(h, NULL) == NULL
    ensures FileFPathMnt(h, NULL) == NULL && FileFPathDentry(h, NULL) == NULL
    ensures LinuxBinprmFile(h, NULL) == NULL && LinuxBinprmFilename(h, NULL) == NULL
    ensures TaskStructMm(h, NULL) == NULL && TaskStructParent(h, NULL) == NULL
    ensures TaskStructChildrenNext(h, NULL) == NULL && TaskStructSiblingNext(h, NULL) == NULL
    ensures TaskStructGroupLeader(h, NULL) == NULL && TaskStructSignal(h, NULL) == NULL
  {
  }

  /** The `int` accessors answer -1 for the null handle. */
  lemma IntAccessorsMinusOneOnNull(h: Heap)
    ensures LinuxBinprmArgc(h, NULL) == -1
    ensures SignalStructLiveCounter(h, NULL) == -1
    ensures TaskStructExitCode(h, NULL) == -1
    ensures TaskStructPid(h, NULL) == -1
    ensures TaskStructTgid(h, NULL) == -1
  {
  }

  /** The `u64`/`unsigned long` accessors answer ULONG_MAX for the null handle. */
  lemma UnsignedAccessorsMaxOnNull(h: Heap)
    ensures KernfsNodeId(h, NULL) == ULONG_MAX
    ensures MmStructArgStart(h, NULL) == ULONG_MAX
    ensures MmStructArgEnd(h, NULL) == ULONG_MAX
  {
  }

  /**
    The sentinel is in-band: a live task whose field already holds -1 cannot
    be told apart from the null handle by the value alone.
   */
  lemma SentinelIsInBand(h: Heap, t: Ptr)
    requires t != NULL && t in h.tasks && h.tasks[t].tgid == -1
    ensures TaskStructTgid(h, t) == TaskStructTgid(h, NULL)
  {
  }

  /**
    Reads through one handle depend only on the object stored at that handle:
    any two heaps that agree on it give every task accessor the same answer.
   */
  lemma TaskAccessorsLocal(h1: Heap, h2: Heap, t: Ptr)
    requires t in h1.tasks && t in h2.tasks && h1.tasks[t] == h2.tasks[t]
    ensures TaskStructTgid(h1, t) == TaskStructTgid(h2, t)
    ensures TaskStructPid(h1, t) == TaskStructPid(h2, t)
    ensures TaskStructExitCode(h1, t) == TaskStructExitCode(h2, t)
    ensures TaskStructParent(h1, t) == TaskStructParent(h2, t)
    ensures TaskStructGroupLeader(h1, t) == TaskStructGroupLeader(h2, t)
    ensures TaskStructSignal(h1, t) == TaskStructSignal(h2, t)
    ensures TaskStructMm(h1, t) == TaskStructMm(h2, t)
  {
  }
}

=== FILE: kernel_api.dfy ===
/**
  The typed wrappers the probe program puts over the C shim: `Task` and
  `Signal` hold a raw handle and turn the shim's sentinels into `Result`s
  whose error is a `c_long`.
 */
module KernelApi {
  import opened Common
  import opened Kernel

  datatype Signal = Signal(ptr: Ptr)
  datatype Task = Task(ptr: Ptr)

  /** An `int` the shim returned: negative values are errors, widened unchanged to `c_long`. */
  function CheckedInt(v: int32): (r: Result<int32, int64>)
    ensures r.Ok? <==> v >= 0
    ensures r.Ok? ==> r.value == v
    ensures r.Err? ==> r.error == v && v < 0
  {
    if v < 0 then Err(v) else Ok(v)
  }

  /** A pointer the shim returned: null becomes `Err(-1)`, anything else is kept. */
  function CheckedPtr(p: Ptr): (r: Result<Ptr, int64>)
    ensures r.Err? <==> p == NULL
    ensures r.Err? ==> r.error == -1
    ensures r.Ok? ==> r.value == p
  {
    if p == NULL then Err(-1) else Ok(p)
  }

  function SignalLiveCounter(h: Heap, s: Signal): (r: Result<int32, int64>)
    ensures r.Ok? <==> SignalStructLiveCounter(h, s.ptr) >= 0
    ensures r.Ok? ==> r.value == SignalStructLiveCounter(h, s.ptr)
    ensures r.Err? ==> r.error == SignalStructLiveCounter(h, s.ptr) && SignalStructLiveCounter(h, s.ptr) < 0
    ensures s.ptr == NULL ==> r == Err(-1)
  {
    CheckedInt(SignalStructLiveCounter(h, s.ptr))
  }

  function TaskExitCode(h: Heap, t: Task): (r: Result<int32, int64>)
    ensures r.Ok? <==> TaskStructExitCode(h, t.ptr) >= 0
    ensures r.Ok? ==> r.value == TaskStructExitCode(h, t.ptr)
    ensures r.Err? ==> r.error == TaskStructExitCode(h, t.ptr) && TaskStructExitCode(h, t.ptr) < 0
    ensures t.ptr == NULL ==> r == Err(-1)
  {
    CheckedInt(TaskStructExitCode(h, t.ptr))
  }

  function TaskPid(h: Heap, t: Task): (r: Result<int32, int64>)
    ensures r.Ok? <==> TaskStructPid(h, t.ptr) >= 0
    ensures r.Ok? ==> r.value == TaskStructPid(h, t.ptr)
    ensures r.Err? ==> r.error == TaskStructPid(h, t.ptr) && TaskStructPid(h, t.ptr) < 0
    ensures t.ptr == NULL ==> r == Err(-1)
  {
    CheckedInt(TaskStructPid(h, t.ptr))
  }

  function TaskTgid(h: Heap, t: Task): (r: Result<int32, int64>)
    ensures r.Ok? <==> TaskStructTgid(h, t.ptr) >= 0
    ensures r.Ok? ==> r.value == TaskStructTgid(h, t.ptr)
    ensures r.Err? ==> r.error == TaskStructTgid(h, t.ptr) && TaskStructTgid(h, t.ptr) < 0
    ensures t.ptr == NULL ==> r == Err(-1)
  {
    CheckedInt(TaskStructTgid(h, t.ptr))
  }

  function TaskParent(h: Heap, t: Task): (r: Result<Task, int64>)
    ensures r.Err? <==> TaskStructParent(h, t.ptr) == NULL
    ensures r.Err? ==> r.error == -1
    ensures r.Ok? ==> r.value == Task(TaskStructParent(h, t.ptr))
    ensures t.ptr == NULL ==> r == Err(-1)
  {
    var p :- CheckedPtr(TaskStructParent(h, t.ptr));
    Ok(Task(p))
  }

  function TaskGroupLeader(h: Heap, t: Task): (r: Result<Task, int64>)
    ensures r.Err? <==> TaskStructGroupLeader(h, t.ptr) == NULL
    ensures r.Err? ==> r.error == -1
    ensures r.Ok? ==> r.value == Task(TaskStructGroupLeader(h, t.ptr))
    ensures t.ptr == NULL ==> r == Err(-1)
  {
    var p :- CheckedPtr(TaskStructGroupLeader(h, t.ptr));
    Ok(Task(p))
  }

  function TaskSignal(h: Heap, t: Task): (r: Result<Signal, int64>)
    ensures r.Err? <==> TaskStructSignal(h, t.ptr) == NULL
    ensures r.Err? ==> r.error == -1
    ensures r.Ok? ==> r.value == Signal(TaskStructSignal(h, t.ptr))
    ensures t.ptr == NULL ==> r == Err(-1)
  {
    var p :- CheckedPtr(TaskStructSignal(h, t.ptr));
    Ok(Signal(p))
  }

  /**
    Chained lookups through the wrappers agree with the heap: for a live task
    whose parent, leader and signal block are set, each step yields the
    object the task record names, and the leader's pid is read from it.
   */
  lemma ChainedLookups(h: Heap, t: Ptr)
    requires t != NULL && t in h.tasks
    requires h.tasks[t].parent != NULL && h.tasks[t].groupLeader != NULL
    requires h.tasks[t].signal != NULL
    ensures TaskParent(h, Task(t)) == Ok(Task(h.tasks[t].parent))
    ensures TaskSignal(h, Task(t)) == Ok(Signal(h.tasks[t].signal))
    ensures var leader := h.tasks[t].groupLeader;
            && TaskGroupLeader(h, Task(t)) == Ok(Task(leader))
            && (leader in h.tasks && h.tasks[leader].pid >= 0 ==>
                  TaskPid(h, Task(leader)) == Ok(h.tasks[leader].pid))
  {
  }
}

=== FILE: probe_properties.dfy ===
/**
  What the two handlers guarantee, alone and over any sequence of firings.
 */
module ProbeProperties {
  import opened Common
  import opened Kernel
  import opened Events
  import opened KernelApi
  import opened ProcessMonitor

  /** A live task as the kernel keeps it: held by the heap, ids and exit code non-negative. */
  predicate LiveTask(h: Heap, t: Ptr) {
    t != NULL && t in h.tasks && h.tasks[t].tgid >= 0 && h.tasks[t].exitCode >= 0
  }

  /** The exit handler reports a live task with its own tgid and exit code. */
  lemma ExitReportsLiveTask(st: State, t: Ptr)
    requires LiveTask(st.heap, t)
    ensures TrySchedProcessExit(st, Task(t)) ==
              (st.(output := st.output + [ExitRecord(st.heap.tasks[t].tgid, st.heap.tasks[t].exitCode)]), Ok(()))
  {
  }

  /** The exit handler gives up on a null task before emitting anything. */
  lemma ExitSkipsNullTask(st: State)
    ensures TrySchedProcessExit(st, Task(NULL)) == (st, Err(-1))
  {
  }

  /** The fork handler still emits for a null task, with pid and ppid -1. */
  lemma ForkEmitsSentinelForNullTask(st: State)
    ensures SecurityTaskAlloc(st, ProbeCtx(Some(NULL))) == (st.(output := st.output + [ForkRecord(-1)]), 0)
  {
  }

  function SingleTaskHeap(t: Ptr, tgid: int32, exitCode: int32): Heap {
    Heap(map[], map[], map[], map[], map[], map[],
         map[t := TaskStruct(NULL, exitCode, tgid, tgid, NULL, NULL, NULL, NULL, NULL)])
  }

  /** Fork-allocation of a task whose tgid is 42: one fork event, pid 42, ppid 42. */
  lemma ScenarioForkOf42(m: Maps)
    ensures var st := State(SingleTaskHeap(0x1000, 42, 0), m, []);
            var r := SecurityTaskAlloc(st, ProbeCtx(Some(0x1000)));
            && r.1 == 0
            && r.0.output == [ProcessEvent(0, 42, ProcessEventPayload(FORK_EVENT, Fork(ForkEvent(42))))]
  {
  }

  /** Exit of tgid 7 with exit code 256: one exit event carrying both. */
  lemma ScenarioExitOf7(m: Maps)
    ensures var st := State(SingleTaskHeap(0x1000, 7, 256), m, []);
            var r := TrySchedProcessExit(st, Task(0x1000));
            && r.1 == Ok(())
            && r.0.output == [ProcessEvent(0, 7, ProcessEventPayload(EXIT_EVENT, Exit(ExitEvent(256))))]
  {
  }

  /** An exit code the shim reports as negative: no event, no channel write. */
  lemma ScenarioExitCodeUnreadable(m: Maps)
    ensures var st := State(SingleTaskHeap(0x1000, 7, -1), m, []);
            var r := TrySchedProcessExit(st, Task(0x1000));
            && r.1 == Err(-1)
            && r.0 == st
  {
  }

  // Sequences of firings

  /** One firing of a probe; the exit firing names the task handle the handler reads. */
  datatype Firing = TaskAlloc(ctx: ProbeCtx) | ProcessExit(task: Ptr)

  function Fire(st: State, f: Firing): State {
    match f
    case TaskAlloc(ctx) => SecurityTaskAlloc(st, ctx).0
    case ProcessExit(task) => TrySchedProcessExit(st, Task(task)).0
  }

  function RunProbes(st: State, fs: seq<Firing>): State
    decreases |fs|
  {
    if fs == [] then st else RunProbes(Fire(st, fs[0]), fs[1..])
  }

  /** Whether a firing reaches the output call. */
  predicate Emits(h: Heap, f: Firing) {
    match f
    case TaskAlloc(ctx) => ctx.arg0.Some?
    case ProcessExit(task) => TaskStructTgid(h, task) >= 0 && TaskStructExitCode(h, task) >= 0
  }

  function CountEmitting(h: Heap, fs: seq<Firing>): nat
    decreases |fs|
  {
    if fs == [] then 0 else (if Emits(h, fs[0]) then 1 else 0) + CountEmitting(h, fs[1..])
  }

  /** Every event written by the handlers is well tagged and unstamped. */
  predicate HandlerEvent(e: ProcessEvent) {
    && e.timestamp == 0
    && TagAgrees(e.payload)
    && (e.payload.eventType == FORK_EVENT || e.payload.eventType == EXIT_EVENT)
    && (e.payload.eventType == EXIT_EVENT ==> e.pid >= 0)
  }

  /**
    Over any sequence of firings the heap and the maps stay as they were, the
    earlier output is kept as a prefix, exactly one event is added per firing
    that reaches the output call, and every added event is a well-tagged fork
    or exit record; exit records never carry a negative pid.
   */
  lemma {:induction false} RunProbesAppendsOnly(st: State, fs: seq<Firing>)
    ensures var r := RunProbes(st, fs);
            && r.heap == st.heap && r.maps == st.maps
            // a corollary of the maps being unchanged, stated for the declared capacities
            && (MapsWithinCapacity(st.maps) ==> MapsWithinCapacity(r.maps))
            && |r.output| == |st.output| + CountEmitting(st.heap, fs)
            && r.output[..|st.output|] == st.output
            && forall i :: |st.output| <= i < |r.output| ==> HandlerEvent(r.output[i])
    decreases |fs|
  {
    if fs != [] {
      var st1 := Fire(st, fs[0]);
      assert st1.heap == st.heap && st1.maps == st.maps;
      assert |st1.output| == |st.output| + (if Emits(st.heap, fs[0]) then 1 else 0);
      assert st1.output[..|st.output|] == st.output;
      assert forall i :: |st.output| <= i < |st1.output| ==> HandlerEvent(st1.output[i]);
      RunProbesAppendsOnly(st1, fs[1..]);
      var r := RunProbes(st1, fs[1..]);
      assert r == RunProbes(st, fs);
      assert r.output[..|st.output|] == r.output[..|st1.output|][..|st.output|];
    }
  }

  // The exit tracepoint's task handle

  /**
    As written, the exit tracepoint reads task fields at the address of its
    own argument block. With process 7 (exit code 256) at handle 0x1000 and
    the argument block at 0x2000, it reports pid 0 and exit code 0; reading
    the tracepoint's first argument reports 7 and 256.
   */
  lemma ExitTracepointMisreadsContext(m: Maps)
    ensures var st := State(SingleTaskHeap(0x1000, 7, 256), m, []);
            var ctx := RawTracePointCtx(0x2000, 0x1000);
            && SchedProcessExit(st, ctx).output == [ExitRecord(0, 0)]
            && SchedProcessExitFromArg(st, ctx).output == [ExitRecord(7, 256)]
  {
  }

  /** Reading the first argument, every live exiting task is reported with its own ids. */
  lemma ExitTracepointReportsArgument(st: State, ctx: RawTracePointCtx)
    requires LiveTask(st.heap, ctx.task)
    ensures SchedProcessExitFromArg(st, ctx).output ==
              st.output + [ExitRecord(st.heap.tasks[ctx.task].tgid, st.heap.tasks[ctx.task].exitCode)]
  {
  }
}

=== FILE: process_monitor.dfy ===
/**
  The probe program: its declared maps and its two handlers.

  A handler sees the kernel heap, the program's maps and the output channel.
  Emitting an event appends it to the channel's log; what the perf channel
  does with it afterwards is not modelled. The handlers never touch the
  interest or staging maps, so every handler leaves them as it found them.
 */
module ProcessMonitor {
  import opened Common
  import opened Kernel
  import opened Events
  import opened KernelApi

  const MAX_IMAGE_LEN: nat := 100
  const MAX_CGROUP_LEN: nat := 300
  const MAX_PREEMPTION_NESTING_LEVEL: nat := 3
  const RULES_CAPACITY: nat := 100
  const INTEREST_CAPACITY: nat := 16384

  /**
    The maps the program declares: image and cgroup rules keyed by fixed-width
    paths, per-pid interest flags, the one-slot init array, and the per-CPU
    staging slots with their nesting counter (one CPU's view).
   */
  datatype Maps = Maps(
    rules: map<seq<int8>, uint8>,
    cgroupRules: map<seq<int8>, uint8>,
    interest: map<int32, int8>,
    initMap: uint32,
    tempProcessEvent: seq<ProcessEvent>,
    nestingProcessEvent: uint64)

  /** The sizes the declarations fix. */
  predicate MapsWithinCapacity(m: Maps) {
    && |m.rules| <= RULES_CAPACITY && |m.cgroupRules| <= RULES_CAPACITY
    && |m.interest| <= INTEREST_CAPACITY
    && (forall k :: k in m.rules ==> |k| == MAX_IMAGE_LEN)
    && (forall k :: k in m.cgroupRules ==> |k| == MAX_CGROUP_LEN)
    && |m.tempProcessEvent| == MAX_PREEMPTION_NESTING_LEVEL
  }

  datatype State = State(heap: Heap, maps: Maps, output: seq<ProcessEvent>)

  /** A kprobe context: argument 0 may be unreadable. */
  datatype ProbeCtx = ProbeCtx(arg0: Option<Ptr>)

  /**
    A raw-tracepoint context: `ptr` is the address of the argument block the
    context wraps, `task` the tracepoint's first argument (the exiting task).
   */
  datatype RawTracePointCtx = RawTracePointCtx(ptr: Ptr, task: Ptr)

  /** One call to the perf channel's `output`. */
  function Emit(st: State, e: ProcessEvent): (r: State)
    ensures r.heap == st.heap && r.maps == st.maps
    ensures |r.output| == |st.output| + 1
    ensures r.output[..|st.output|] == st.output && r.output[|st.output|] == e
  {
    st.(output := st.output + [e])
  }

  /** The record the task-alloc handler builds from a raw tgid. */
  function ForkRecord(tgid: int32): ProcessEvent {
    ProcessEvent(0, tgid, ProcessEventPayload(FORK_EVENT, Fork(ForkEvent(tgid))))
  }

  /** The error `map_err` substitutes for a failed `u32` conversion. */
  const CONVERSION_ERROR: int64 := -1

  /** The record the exit handler builds. */
  function ExitRecord(tgid: int32, exitCode: uint32): ProcessEvent {
    ProcessEvent(0, tgid, ProcessEventPayload(EXIT_EVENT, Exit(ExitEvent(exitCode))))
  }

  /**
    `handle_task_alloc`: reads the task's tgid without checking the sentinel
    and emits one fork event carrying it as both pid and ppid.
   */
  function HandleTaskAlloc(st: State, task: Ptr): (r: (State, Result<(), int64>))
    ensures r.1 == Ok(())
    ensures r.0.heap == st.heap && r.0.maps == st.maps
    ensures |r.0.output| == |st.output| + 1 && r.0.output[..|st.output|] == st.output
    ensures var e := r.0.output[|st.output|];
            && e.timestamp == 0
            && e.pid == TaskStructTgid(st.heap, task)
            && e.payload.eventType == FORK_EVENT
            && e.payload.payload == Fork(ForkEvent(e.pid))
            && TagAgrees(e.payload)
    ensures task == NULL ==> r.0.output[|st.output|].pid == -1
  {
    var tgid := TaskStructTgid(st.heap, task);
    (Emit(st, ForkRecord(tgid)), Ok(()))
  }

  /** `try_security_task_alloc`: fails with -1 only when argument 0 cannot be read. */
  function TrySecurityTaskAlloc(st: State, ctx: ProbeCtx): (r: (State, Result<(), int64>))
    ensures ctx.arg0.None? ==> r == (st, Err(-1))
    ensures ctx.arg0.Some? ==> r.1 == Ok(()) && r.0.output == st.output + [ForkRecord(TaskStructTgid(st.heap, ctx.arg0.value))]
  {
    match ctx.arg0
    case None => (st, Err(-1))
    case Some(task) => HandleTaskAlloc(st, task)
  }

  /** The kprobe `security_task_alloc`: 0 on success, 1 on failure. */
  function SecurityTaskAlloc(st: State, ctx: ProbeCtx): (r: (State, uint32))
    ensures r.1 == 0 || r.1 == 1
    ensures r.1 == 1 <==> ctx.arg0.None?
    ensures r.0.heap == st.heap && r.0.maps == st.maps
    ensures ctx.arg0.None? ==> r.0 == st
    ensures ctx.arg0.Some? ==> r.0.output == st.output + [ForkRecord(TaskStructTgid(st.heap, ctx.arg0.value))]
  {
    var (st', res) := TrySecurityTaskAlloc(st, ctx);
    (st', if res.Ok? then 0 else 1)
  }

  /**
    The event the exit handler builds for a task, or the error that stops it:
    tgid first, then the exit code, then its conversion to `u32` (whose
    failure would map to -1).
   */
  function ExitEventOf(h: Heap, task: Task): (r: Result<ProcessEvent, int64>)
    ensures r.Ok? <==> TaskStructTgid(h, task.ptr) >= 0 && TaskStructExitCode(h, task.ptr) >= 0
    ensures r.Ok? ==> r.value == ExitRecord(TaskStructTgid(h, task.ptr), TaskStructExitCode(h, task.ptr))
    ensures r.Err? && TaskStructTgid(h, task.ptr) < 0 ==> r.error == TaskStructTgid(h, task.ptr)
    ensures r.Err? && TaskStructTgid(h, task.ptr) >= 0 ==> r.error == TaskStructExitCode(h, task.ptr)
  {
    var tgid :- TaskTgid(h, task);
    var code :- TaskExitCode(h, task);
    match TryIntoU32(code)
    case Some(exitCode) => Ok(ExitRecord(tgid, exitCode))
    case None => Err(CONVERSION_ERROR)
  }

  /**
    `try_sched_process_exit` once the task handle is known: emits exactly one
    exit event when both reads succeed, and nothing otherwise.
   */
  function TrySchedProcessExit(st: State, task: Task): (r: (State, Result<(), int64>))
    ensures r.0.heap == st.heap && r.0.maps == st.maps
    ensures r.1.Ok? <==> TaskStructTgid(st.heap, task.ptr) >= 0 && TaskStructExitCode(st.heap, task.ptr) >= 0
    ensures r.1.Err? ==> r.0 == st && r.1.error < 0
    ensures r.1.Ok? ==> r.0.output == st.output + [ExitRecord(TaskStructTgid(st.heap, task.ptr), TaskStructExitCode(st.heap, task.ptr))]
    ensures r.1.Ok? ==> var e := r.0.output[|st.output|];
                        && e.pid >= 0 && e.timestamp == 0
                        && e.payload.eventType == EXIT_EVENT && TagAgrees(e.payload)
  {
    match ExitEventOf(st.heap, task)
    case Err(e) => (st, Err(e))
    case Ok(ev) => (Emit(st, ev), Ok(()))
  }

  /**
    The raw tracepoint `sched_process_exit` as written: the task handle is
    the context's own address (`ctx.as_ptr()`), and the result is dropped.
   */
  function SchedProcessExit(st: State, ctx: RawTracePointCtx): (r: State)
    ensures r.heap == st.heap && r.maps == st.maps
    ensures r != st <==> TaskStructTgid(st.heap, ctx.ptr) >= 0 && TaskStructExitCode(st.heap, ctx.ptr) >= 0
    ensures r != st ==> r.output == st.output + [ExitRecord(TaskStructTgid(st.heap, ctx.ptr), TaskStructExitCode(st.heap, ctx.ptr))]
  {
    TrySchedProcessExit(st, Task(ctx.ptr)).0
  }

  /** The exit tracepoint reading its task from the tracepoint's first argument. */
  function SchedProcessExitFromArg(st: State, ctx: RawTracePointCtx): (r: State)
    ensures r.heap == st.heap && r.maps == st.maps
    ensures r != st <==> TaskStructTgid(st.heap, ctx.task) >= 0 && TaskStructExitCode(st.heap, ctx.task) >= 0
    ensures r != st ==> r.output == st.output + [ExitRecord(TaskStructTgid(st.heap, ctx.task), TaskStructExitCode(st.heap, ctx.task))]
  {
    TrySchedProcessExit(st, Task(ctx.task)).0
  }
}

=== FILE: pulsar_cli.dfy ===
/**
  The `pulsar` command-line client: it connects to the engine's API,
  dispatches one sub-command, and for `monitor` prints the events a stream
  delivers.

  The engine is abstract. Connecting yields an error or not, each API call
  yields a reply text or an error, the event stream is a finite sequence of
  reads, and the rule compiler yields either an error or an opaque matcher.
  What the client prints is recorded as lines; the formatting of replies
  and events is not modelled.
 */
module PulsarCli {
  import opened Common

  datatype ModuleConfigKV = ModuleConfigKV(moduleName: string, key: string, value: string)

  datatype Command =
    | Status
    | Start(moduleName: string)
    | Restart(moduleName: string)
    | Stop(moduleName: string)
    | Config(all: bool, ofModule: Option<string>, assignment: Option<ModuleConfigKV>)
    | Monitor(all: bool, filterType: Option<string>, filterCondition: Option<string>)

  datatype CliOpts = CliOpts(apiServer: Option<string>, command: Command)

  datatype Endpoint = UnixSocket(path: string) | DefaultSocket

  datatype ApiCall =
    | ListModules
    | StartModule(name: string)
    | RestartModule(name: string)
    | StopModule(name: string)
    | GetConfigs
    | GetModuleConfig(name: string)
    | SetModuleConfig(configModule: string, key: string, value: string)
    | EventMonitor

  datatype Reply = Replied(text: string) | CallFailed(message: string)

  /** An engine event: its rendering and the threat field of its header. */
  datatype Event = Event(text: string, threat: Option<string>)

  datatype StreamItem = Received(event: Event) | ReadFailed(message: string)

  datatype UserRule = UserRule(name: string, ruleType: string, condition: string)

  /** A compiled rule, known only through its matcher. */
  datatype Rule = Rule(isMatch: Event -> bool)

  datatype Engine = Engine(
    connect: Endpoint -> Option<string>,
    call: ApiCall -> Reply,
    stream: seq<StreamItem>,
    compile: UserRule -> Result<Rule, string>)

  datatype Line = Printed(text: string) | PrintedEvent(event: Event)

  /** The API calls made, in order, the lines printed, and how the client ended. */
  datatype CliRun = CliRun(calls: seq<ApiCall>, lines: seq<Line>, outcome: Outcome)

  const MISSING_CONDITION := "--filter-condition is required when --filter-type is provided"
  const MISSING_TYPE := "--filter-type is required when --filter-condition is provided"
  const READ_ERROR_CONTEXT := "error reading from websocket"
  const STREAM_ENDED := "event stream ended"
  const UNREACHABLE := "internal error: entered unreachable code"

  /**
    The filter options of `monitor`: both or neither must be given; with both,
    the ad-hoc rule has an empty name.
   */
  function FilterRule(filterType: Option<string>, filterCondition: Option<string>): (r: Result<Option<UserRule>, string>)
    ensures filterType.Some? && filterCondition.None? ==> r == Err(MISSING_CONDITION)
    ensures filterType.None? && filterCondition.Some? ==> r == Err(MISSING_TYPE)
    ensures r == Ok(None) <==> filterType.None? && filterCondition.None?
    ensures filterType.Some? && filterCondition.Some? ==>
              r == Ok(Some(UserRule("", filterType.value, filterCondition.value)))
  {
    match filterType
    case Some(t) =>
      (match filterCondition
       case Some(c) => Ok(Some(UserRule("", t, c)))
       case None => Err(MISSING_CONDITION))
    case None =>
      if filterCondition.Some? then Err(MISSING_TYPE) else Ok(None)
  }

  /**
    Whether `monitor` prints an event: with a rule, only the rule decides and
    `--all` and the threat field are ignored; without one, an event is printed
    exactly when `--all` is set or it carries a threat.
   */
  function ShouldPrint(rule: Option<Rule>, all: bool, e: Event): (b: bool)
    ensures rule.Some? ==> (b <==> rule.value.isMatch(e))
    ensures rule.None? ==> (b <==> all || e.threat.Some?)
  {
    match rule
    case Some(r) => r.isMatch(e)
    case None => all || e.threat.Some?
  }

  /** The events read before the stream's first error (all of them if none). */
  function EventsBeforeError(items: seq<StreamItem>): (es: seq<Event>)
    ensures |es| <= |items|
    ensures forall i :: 0 <= i < |es| ==> items[i] == Received(es[i])
    ensures |es| < |items| ==> items[|es|].ReadFailed?
    decreases |items|
  {
    if items == [] || items[0].ReadFailed? then []
    else [items[0].event] + EventsBeforeError(items[1..])
  }

  /** The events of `es` that `monitor` prints, in order. */
  function Selected(rule: Option<Rule>, all: bool, es: seq<Event>): seq<Event>
    decreases |es|
  {
    if es == [] then []
    else (if ShouldPrint(rule, all, es[0]) then [es[0]] else []) + Selected(rule, all, es[1..])
  }

  /**
    The read loop of `monitor`, as a loop over the stream. It prints the
    events the filter selects until a read fails or the stream ends, and
    ends with an error either way.
   */
  method Watch(rule: Option<Rule>, all: bool, items: seq<StreamItem>) returns (printed: seq<Event>, outcome: Outcome)
    ensures printed == Selected(rule, all, EventsBeforeError(items))
    ensures forall e :: e in printed ==> ShouldPrint(rule, all, e)
    ensures outcome.Failed?
    ensures |EventsBeforeError(items)| == |items| ==> outcome == Failed([STREAM_ENDED])
    ensures |EventsBeforeError(items)| < |items| ==>
              outcome == Failed([READ_ERROR_CONTEXT, items[|EventsBeforeError(items)|].message])
  {
    printed := [];
    var i := 0;
    while i < |items| && items[i].Received?
      invariant 0 <= i <= |items|
      invariant forall j :: 0 <= j < i ==> items[j].Received?
      invariant printed == Selected(rule, all, EventsOf(items[..i]))
      decreases |items| - i
    {
      var e := items[i].event;
      SelectedAppend(rule, all, EventsOf(items[..i]), e);
      EventsOfSnoc(items[..i], items[i]);
      assert items[..i + 1] == items[..i] + [items[i]];
      printed := printed + (if ShouldPrint(rule, all, e) then [e] else []);
      i := i + 1;
    }
    EventsBeforeErrorSplit(items, i);
    SelectedOnlyPrintable(rule, all, EventsBeforeError(items));
    if i < |items| {
      outcome := Failed([READ_ERROR_CONTEXT, items[i].message]);
    } else {
      outcome := Failed([STREAM_ENDED]);
    }
  }

  /**
    When the first `i` reads all delivered events and read `i` is an error
    or the end, those events are exactly the ones before the first error.
   */
  lemma {:induction false} EventsBeforeErrorSplit(items: seq<StreamItem>, i: nat)
    requires i <= |items|
    requires forall j :: 0 <= j < i ==> items[j].Received?
    requires i == |items| || items[i].ReadFailed?
    ensures EventsBeforeError(items) == EventsOf(items[..i])
    decreases i
  {
    if i > 0 {
      assert items[1..][..i - 1] == items[..i][1..];
      EventsBeforeErrorSplit(items[1..], i - 1);
    }
  }

  /** The events of a stream prefix that holds no error. */
  function EventsOf(items: seq<StreamItem>): (es: seq<Event>)
    requires forall j :: 0 <= j < |items| ==> items[j].Received?
    ensures |es| == |items|
    decreases |items|
  {
    if items == [] then [] else [items[0].event] + EventsOf(items[1..])
  }

  lemma {:induction false} EventsOfSnoc(items: seq<StreamItem>, last: StreamItem)
    requires forall j :: 0 <= j < |items| ==> items[j].Received?
    requires last.Received?
    ensures EventsOf(items + [last]) == EventsOf(items) + [last.event]
    decreases |items|
  {
    if items != [] {
      assert (items + [last])[1..] == items[1..] + [last];
      EventsOfSnoc(items[1..], last);
    }
  }

  lemma {:induction false} SelectedAppend(rule: Option<Rule>, all: bool, es: seq<Event>, e: Event)
    ensures Selected(rule, all, es + [e]) ==
              Selected(rule, all, es) + (if ShouldPrint(rule, all, e) then [e] else [])
    decreases |es|
  {
    if es != [] {
      assert (es + [e])[1..] == es[1..] + [e];
      SelectedAppend(rule, all, es[1..], e);
    }
  }

  lemma {:induction false} SelectedOnlyPrintable(rule: Option<Rule>, all: bool, es: seq<Event>)
    ensures forall e :: e in Selected(rule, all, es) ==> ShouldPrint(rule, all, e)
    decreases |es|
  {
    if es != [] {
      SelectedOnlyPrintable(rule, all, es[1..]);
    }
  }

  /** Lines for printed events, in order. */
  function EventLines(es: seq<Event>): (ls: seq<Line>)
    ensures |ls| == |es|
    ensures forall i :: 0 <= i < |es| ==> ls[i] == PrintedEvent(es[i])
  {
    seq(|es|, i requires 0 <= i < |es| => PrintedEvent(es[i]))
  }

  /**
    The rule `monitor` filters with: the option check, then parsing and
    compiling the ad-hoc rule when both options were given.
   */
  function CompiledRule(engine: Engine, filterType: Option<string>, filterCondition: Option<string>): (r: Result<Option<Rule>, string>)
    ensures FilterRule(filterType, filterCondition).Err? ==> r == Err(FilterRule(filterType, filterCondition).error)
    ensures FilterRule(filterType, filterCondition) == Ok(None) ==> r == Ok(None)
    ensures FilterRule(filterType, filterCondition).Ok? && FilterRule(filterType, filterCondition).value.Some? ==>
              var rule := engine.compile(FilterRule(filterType, filterCondition).value.value);
              && (rule.Err? ==> r == Err(rule.error))
              && (rule.Ok? ==> r == Ok(Some(rule.value)))
  {
    var userRule :- FilterRule(filterType, filterCondition);
    match userRule
    case None => Ok(None)
    case Some(u) =>
      var rule :- engine.compile(u);
      Ok(Some(rule))
  }

  /**
    `monitor`: never ends normally. An invalid option pair or a rule that does
    not compile fails before the stream is opened; otherwise the one API call
    opens the stream and the printed lines are the selected events read
    before the first error.
   */
  method RunMonitor(engine: Engine, all: bool, filterType: Option<string>, filterCondition: Option<string>) returns (r: CliRun)
    ensures r.outcome.Failed?
    ensures CompiledRule(engine, filterType, filterCondition).Err? ==>
              r == CliRun([], [], Failed([CompiledRule(engine, filterType, filterCondition).error]))
    ensures CompiledRule(engine, filterType, filterCondition).Ok? ==> r.calls == [EventMonitor]
    ensures CompiledRule(engine, filterType, filterCondition).Ok? && engine.call(EventMonitor).CallFailed? ==>
              r == CliRun([EventMonitor], [], Failed([engine.call(EventMonitor).message]))
    ensures CompiledRule(engine, filterType, filterCondition).Ok? && engine.call(EventMonitor).Replied? ==>
              var n := |EventsBeforeError(engine.stream)|;
              && r.lines == EventLines(Selected(CompiledRule(engine, filterType, filterCondition).value, all, EventsBeforeError(engine.stream)))
              && (n == |engine.stream| ==> r.outcome == Failed([STREAM_ENDED]))
              && (n < |engine.stream| ==> r.outcome == Failed([READ_ERROR_CONTEXT, engine.stream[n].message]))
  {
    match CompiledRule(engine, filterType, filterCondition)
    case Err(e) =>
      r := CliRun([], [], Failed([e]));
    case Ok(rule) =>
      match engine.call(EventMonitor)
      case CallFailed(m) =>
        r := CliRun([EventMonitor], [], Failed([m]));
      case Replied(_) =>
        var printed, outcome := Watch(rule, all, engine.stream);
        r := CliRun([EventMonitor], EventLines(printed), outcome);
  }

  /** The one API call a non-monitor command makes, and the fixed text it prints on success (none: print the reply). */
  function CommandCall(cmd: Command): (c: Option<(ApiCall, Option<string>)>)
    requires !cmd.Monitor?
    ensures cmd.Status? ==> c == Some((ListModules, None))
    ensures cmd.Start? ==> c == Some((StartModule(cmd.moduleName), Some("Module started")))
    ensures cmd.Restart? ==> c == Some((RestartModule(cmd.moduleName), Some("Module restarted")))
    ensures cmd.Stop? ==> c == Some((StopModule(cmd.moduleName), Some("Module stopped")))
    ensures cmd.Config? ==> c == ConfigCall(cmd.all, cmd.ofModule, cmd.assignment)
  {
    match cmd
    case Status => Some((ListModules, None))
    case Start(m) => Some((StartModule(m), Some("Module started")))
    case Restart(m) => Some((RestartModule(m), Some("Module restarted")))
    case Stop(m) => Some((StopModule(m), Some("Module stopped")))
    case Config(all, ofModule, assignment) => ConfigCall(all, ofModule, assignment)
  }

  /**
    `config`: `--all` wins over a module name, which wins over an assignment;
    with none of them the client reaches `unreachable!()`.
   */
  function ConfigCall(all: bool, ofModule: Option<string>, assignment: Option<ModuleConfigKV>): (c: Option<(ApiCall, Option<string>)>)
    ensures c.None? <==> !all && ofModule.None? && assignment.None?
    ensures all ==> c == Some((GetConfigs, None))
    ensures !all && ofModule.Some? ==> c == Some((GetModuleConfig(ofModule.value), None))
    ensures !all && ofModule.None? && assignment.Some? ==>
              var kv := assignment.value;
              c == Some((SetModuleConfig(kv.moduleName, kv.key, kv.value), Some("Configuration updated")))
  {
    if all then Some((GetConfigs, None))
    else if ofModule.Some? then Some((GetModuleConfig(ofModule.value), None))
    else if assignment.Some? then
      var kv := assignment.value;
      Some((SetModuleConfig(kv.moduleName, kv.key, kv.value), Some("Configuration updated")))
    else None
  }

  /** Options that do not decide the `config` call: `--all` hides the rest, a module name hides an assignment. */
  lemma ConfigPrecedence(m1: Option<string>, m2: Option<string>, s1: Option<ModuleConfigKV>, s2: Option<ModuleConfigKV>, name: string)
    ensures ConfigCall(true, m1, s1) == ConfigCall(true, m2, s2)
    ensures ConfigCall(false, Some(name), s1) == ConfigCall(false, Some(name), s2)
  {
  }

  /** One API call; on success print the fixed text, or the reply itself when there is none. */
  function Issue(engine: Engine, call: ApiCall, confirmation: Option<string>): (r: CliRun)
    ensures r.calls == [call]
    ensures r.outcome.Done? <==> engine.call(call).Replied?
    ensures engine.call(call).CallFailed? ==> r.lines == [] && r.outcome == Failed([engine.call(call).message])
    ensures engine.call(call).Replied? && confirmation.Some? ==> r.lines == [Printed(confirmation.value)]
    ensures engine.call(call).Replied? && confirmation.None? ==> r.lines == [Printed(engine.call(call).text)]
  {
    match engine.call(call)
    case CallFailed(m) => CliRun([call], [], Failed([m]))
    case Replied(text) => CliRun([call], [Printed(if confirmation.Some? then confirmation.value else text)], Done)
  }

  function EndpointOf(apiServer: Option<string>): Endpoint {
    if apiServer.Some? then UnixSocket(apiServer.value) else DefaultSocket
  }

  /**
    `pulsar_cli_run`: connect (to the given socket, or the default one), then
    run the sub-command. Every sub-command but `monitor` makes exactly one API
    call; `monitor` never ends normally.
   */
  method RunCli(opts: CliOpts, engine: Engine) returns (r: CliRun)
    ensures var err := engine.connect(EndpointOf(opts.apiServer));
            err.Some? ==> r == CliRun([], [], Failed([err.value]))
    ensures engine.connect(EndpointOf(opts.apiServer)).None? && !opts.command.Monitor? ==>
              match CommandCall(opts.command)
              case None => r == CliRun([], [], Panicked(UNREACHABLE))
              case Some((call, confirmation)) =>
                && r.calls == [call]
                && (r.outcome.Done? <==> engine.call(call).Replied?)
                && (engine.call(call).CallFailed? ==> r.lines == [] && r.outcome == Failed([engine.call(call).message]))
                && (engine.call(call).Replied? && confirmation.Some? ==> r.lines == [Printed(confirmation.value)])
                && (engine.call(call).Replied? && confirmation.None? ==> r.lines == [Printed(engine.call(call).text)])
    ensures opts.command.Monitor? ==> r.outcome.Failed?
    ensures engine.connect(EndpointOf(opts.apiServer)).None? && opts.command.Monitor? ==>
              var m := opts.command;
              var rule := CompiledRule(engine, m.filterType, m.filterCondition);
              var n := |EventsBeforeError(engine.stream)|;
              && (FilterRule(m.filterType, m.filterCondition).Err? ==>
                    r == CliRun([], [], Failed([FilterRule(m.filterType, m.filterCondition).error])))
              && (rule.Err? ==> r == CliRun([], [], Failed([rule.error])))
              && (rule.Ok? ==> r.calls == [EventMonitor])
              && (rule.Ok? && engine.call(EventMonitor).CallFailed? ==>
                    r == CliRun([EventMonitor], [], Failed([engine.call(EventMonitor).message])))
              && (rule.Ok? && engine.call(EventMonitor).Replied? ==>
                    && r.lines == EventLines(Selected(rule.value, m.all, EventsBeforeError(engine.stream)))
                    && (n == |engine.stream| ==> r.outcome == Failed([STREAM_ENDED]))
                    && (n < |engine.stream| ==> r.outcome == Failed([READ_ERROR_CONTEXT, engine.stream[n].message])))
  {
    match engine.connect(EndpointOf(opts.apiServer))
    case Some(err) =>
      r := CliRun([], [], Failed([err]));
    case None =>
      match opts.command
      case Monitor(all, filterType, filterCondition) =>
        r := RunMonitor(engine, all, filterType, filterCondition);
      case _ =>
        match CommandCall(opts.command)
        case None =>
          r := CliRun([], [], Panicked(UNREACHABLE));
        case Some((call, confirmation)) =>
          r := Issue(engine, call, confirmation);
  }

  /** Without a rule and without `--all`, the events selected are exactly those carrying a threat. */
  lemma {:induction false} ThreatsOnly(es: seq<Event>)
    ensures forall e :: e in Selected(None, false, es) <==> e in es && e.threat.Some?
    decreases |es|
  {
    if es != [] {
      ThreatsOnly(es[1..]);
      assert es == [es[0]] + es[1..];
    }
  }
}
